=== FILE: README.md ===
# cine-trip core, modelled in Dafny

cine-trip is a personal cinema log. Each cinema has a brand, a position and a
favourite flag. Each watch record says who saw which movie at which cinema, with
a genre, an optional rating, a comment and a poster. This project models:

- the server actions on the two tables;
- the derived views built from them: the cinema list with its averages and
  sorts, the statistics page, and the cards and lists;
- the movie-search route;
- the client filter store;
- the interactive map: marker styling, selection, the info window, panning,
  the timers, and the rebuild on new data.

Everything is an immutable value, and every operation is a pure function from
its inputs to the new state (and, for the map, to the ordered list of widget
calls it makes). The modules follow the source:

| module | models |
|---|---|
| `Wrappers` | `Option` and `Result`; `Truthy` is JavaScript truthiness of an optional string |
| `Sorting` | the stable descending sort of `Array.prototype.sort`, and `slice`; a database `ORDER BY … DESC` is modelled by the same sort, which keeps ties in storage order |
| `Constants` | the genre, brand, sort-option and user tables |
| `Schema` | the two tables, the cascading delete, and ratings as exact tenths with their one-decimal text |
| `Ratings` | the average rating: the mean rounded half-up to one decimal |
| `CinemaActions` | `getCinemas`, `getCinemaById`, `createCinema`, `deleteCinema`, `toggleFavorite` |
| `WatchActions` | `isReadonlyUser`, `createWatch`, `updateWatch`, `deleteWatch` |
| `MovieSearch` | the search route: genre mapping, poster URL, year, and the 400/500/200 outcomes |
| `Stats` | the statistics page: total, per-genre counts, display order, top five |
| `FilterStore` | the filter store with its setters and reset |
| `Views` | `CinemaCard`, `CinemaList`, `WatchList` |
| `MapStyle` | marker colour, numeral, size, anchor, z-order; the info window content |
| `MapEngine` | the map component as a state machine over markers, the info window, the selection, the viewport and the pending timers |

The model uses these abstractions:

- **Coordinates.** Coordinates are integers, for example degrees times 10^4.
  Only equality and the minimum and maximum are used, so the scale does not
  matter.
- **Ratings.** A rating is a whole number of tenths from 0 to 99, that is
  0.0 to 9.9: the non-negative values of the `decimal(2,1)` column. The
  column also holds -9.9 to -0.1; see "Left out". The database keeps a
  rating as the text `d.d`. `parseFloat`, summing and dividing are replaced
  by exact integer arithmetic, so the rounding of the average is stated
  exactly: the mean lies within half a tenth of the result
  (n·(2r−1) ≤ 2·sum < n·(2r+1)), and halves round up.
- **The map widget.** Markers and info windows have numbered handles. The
  widget's state is the set of attached marker handles and the set of open
  window handles. The effect list records every widget call in order.
- **React.** A render with new props is modelled as the effects that fire for
  it, in declaration order. The selection restyle (`NaverMap.tsx:301`) runs
  before the marker rebuild (`NaverMap.tsx:316`). `setTimeout` callbacks wait
  in a list and may fire in any order.

Some behaviour of the code is easy to misread:

- **Restyling.** The restyle effect runs whenever the selection changes. The
  comment at `NaverMap.tsx:300` says "update markers when the selection
  changes". It demotes every marker, not only the previous selection, and
  then promotes the selected one.
- **Highlight after new data.** The restyle effect runs before the rebuild,
  and the rebuild draws every marker unselected. So after new cinema data no
  marker is highlighted. This holds even though the effective selection is
  unchanged, and it stays so until the selection changes
  (`MapEngine.CinemasChangedDropsHighlight`). Clicking the already-selected
  marker does not bring the highlight back, because the selection did not
  change (`MapEngine.ClickHighlights`).
- **External center changes.** A new `center` prop is compared with the
  center recorded when the map was created (`NaverMap.tsx:224, 267`), not
  with the center last applied (`MapEngine.CenterGuard`).
- **Readonly users.** Only `createWatch` refuses readonly users. `updateWatch`
  and `deleteWatch` check ownership only, so a readonly user may still edit or
  delete their own records (`WatchActions.ReadonlyOwnerMayUpdate`).
- **`updateWatch` and the cinema.** `updateWatch` takes a `cinemaId` but never
  writes it. A watch cannot be moved to another cinema.

## Model

| member | source | states |
|---|---|---|
| Schema.DeleteCinemaRow | src/db/schema.ts:24-28 | deleting a cinema keeps the store valid, removes the cinema and every watch that points at it, and keeps every other cinema and watch |
| Schema.KeepCinemas | src/app/actions/cinema.ts:141-142 | a cinema survives the delete exactly when its id differs, and distinct ids stay distinct |
| Schema.KeepWatches | src/db/schema.ts:26-28 | the cascade keeps exactly the watches of other cinemas, and distinct ids stay distinct |
| Schema.RatingText | src/db/schema.ts:32 | the stored rating text has the one-decimal shape `d.d` |
| Schema.RatingTextRoundTrip | src/db/schema.ts:32 | parsing the stored text of a rating gives the rating back |
| Schema.ParseRatingCanonical | src/app/actions/cinema.ts:32-34 | every text that parses as a rating is exactly the text stored for that rating, so text and value determine each other |
| Ratings.RatingsOf | src/app/actions/cinema.ts:32-34 | the parsed ratings are no more than the watches, and there are none exactly when every rating is null |
| Ratings.RoundedMean | src/app/actions/cinema.ts:37 | the result is the mean rounded to the nearest tenth, halves up |
| Ratings.RoundedMeanWithin | src/app/actions/cinema.ts:37 | rounding a mean never leaves the range its values lie in |
| Ratings.AverageRating | src/app/actions/cinema.ts:35-38 | the average is null exactly when no watch has a rating |
| Ratings.AverageRatingRounds | src/app/actions/cinema.ts:35-38 | a present average is the rounded mean of the non-null ratings |
| Ratings.AverageWithinRatings | src/app/actions/cinema.ts:83-89 | the average lies between the smallest and largest rating |
| Sorting.InsertDescSorted | src/app/stats/page.tsx:23-25 | inserting into a descending sequence keeps it descending |
| Sorting.SortDesc | src/app/stats/page.tsx:23-25 | the sort is a permutation of its input |
| Sorting.SortDescSorted | src/app/stats/page.tsx:23-25 | the sorted sequence is descending in the key |
| Sorting.SortDescStable | src/app/stats/page.tsx:23-25 | elements with equal keys keep their input order, as a stable sort does |
| Sorting.Take | src/app/stats/page.tsx:25 | `slice(0, n)` is a prefix of length min(n, length) |
| Constants.GenresTable | src/constants/index.ts:3-12 | eight distinct genres, from 액션 to 기타 |
| Constants.BrandsTable | src/constants/index.ts:14-20 | five distinct brands |
| Constants.SortOptionsTable | src/constants/index.ts:22-26 | three options with distinct values, and every sort option is offered |
| CinemaActions.OfCinema | src/app/actions/cinema.ts:14-18 | the watches joined to a cinema all belong to it and are drawn from the table |
| CinemaActions.OfCinemaMember | src/app/actions/cinema.ts:14-18 | a watch is joined to a cinema exactly when it is in the table with that cinema id |
| CinemaActions.WatchesOf | src/app/actions/cinema.ts:14-18 | the joined watches are a reordering of that cinema's watches |
| CinemaActions.WatchesOfNewestFirst | src/app/actions/cinema.ts:16 | joined watches are ordered newest watch date first |
| CinemaActions.WatchesOfMember | src/app/actions/cinema.ts:14-18 | a watch is listed under a cinema exactly when it belongs to it |
| CinemaActions.WithBrand | src/app/actions/cinema.ts:19 | the brand filter keeps only matching cinemas, drawn from the table |
| CinemaActions.WithBrandMember | src/app/actions/cinema.ts:19 | a cinema passes the filter exactly when it is in the table and matches a truthy brand, or when the brand is absent |
| CinemaActions.DbOrder | src/app/actions/cinema.ts:20-25 | the order clause permutes the rows, and "latest" orders them newest creation first |
| CinemaActions.QueryRows | src/app/actions/cinema.ts:13-26 | the query returns matching cinemas, newest first for "latest" |
| CinemaActions.QueryRowsMember | src/app/actions/cinema.ts:13-26 | a cinema is returned exactly when it is in the table and matches the brand |
| CinemaActions.HasWatchesJoined | src/app/actions/cinema.ts:29 | the "has watches" filter is exactly "the joined list is non-empty" |
| CinemaActions.Watched | src/app/actions/cinema.ts:29 | only cinemas with watches remain |
| CinemaActions.WatchedMember | src/app/actions/cinema.ts:29 | a row remains exactly when its cinema has a watch |
| CinemaActions.WatchedKeepsOrder | src/app/actions/cinema.ts:29 | filtering keeps the newest-first order |
| CinemaActions.SummarizeAll | src/app/actions/cinema.ts:31-57 | one summary per row, in row order |
| CinemaActions.GetCinemas | src/app/actions/cinema.ts:9-69 | the result is a permutation of the summarised rows, and unchanged unless sorting by rating |
| CinemaActions.GetCinemasRows | src/app/actions/cinema.ts:29-57 | each listed entry is a stored cinema of the brand, with its newest-first watches, a count equal to their number, which is positive, and their average |
| CinemaActions.GetCinemasMember | src/app/actions/cinema.ts:19-29 | a cinema is listed exactly when it is stored, matches the brand and has a watch |
| CinemaActions.GetCinemasLatest | src/app/actions/cinema.ts:20-22 | with "latest" the list is newest creation first |
| CinemaActions.GetCinemasByRating | src/app/actions/cinema.ts:59-66 | with "rating" rated cinemas come first by descending average, and unrated ones come last |
| CinemaActions.RatingKeyOrder | src/app/actions/cinema.ts:61-64 | sorting by the rating key gives the comparator's order: null last, otherwise higher first |
| CinemaActions.RatingSortStable | src/app/actions/cinema.ts:60-65 | cinemas with equal averages keep their query order |
| CinemaActions.FindRow | src/app/actions/cinema.ts:147-149 | `findFirst` fails exactly when no row satisfies the condition, and otherwise returns a stored row that does |
| CinemaActions.GetCinemaById | src/app/actions/cinema.ts:71-108 | null exactly for an unknown id; otherwise the cinema with its newest-first watches, their count and average |
| CinemaActions.UnwatchedCinemaOnlyById | src/app/actions/cinema.ts:71-108 | a cinema without watches is found by id with an empty list and no average, but is never listed by `getCinemas` |
| CinemaActions.CreateCinema | src/app/actions/cinema.ts:110-139 | an existing name returns that cinema and leaves the store alone; otherwise one new non-favourite cinema is added with the given fields and a missing brand as null |
| CinemaActions.ToggleFavorite | src/app/actions/cinema.ts:146-162 | null and no change for an unknown id; otherwise only that cinema's flag flips |
| CinemaActions.ToggleTwice | src/app/actions/cinema.ts:153-157 | toggling the same cinema twice gives back the original store |
| WatchActions.FindUser | src/app/actions/watch.ts:10 | `USERS.find` returns the first user with the id, or nothing when none has it |
| WatchActions.IsReadonlyIn | src/app/actions/watch.ts:9-12 | a user is readonly exactly when the first entry with the id says `readonly: true` |
| WatchActions.ReadonlyUsers | src/constants/index.ts:28-31 | with the shipped user table only `guest` is readonly |
| WatchActions.FindWatch | src/app/actions/watch.ts:70-72 | the lookup fails exactly when no watch has the id |
| WatchActions.CreateWatch | src/app/actions/watch.ts:14-57 | readonly users are refused; an unknown cinema fails the foreign key; otherwise exactly one watch with the given fields is added |
| WatchActions.UpdateWatch | src/app/actions/watch.ts:59-110 | not found, then not owner, are the only errors; otherwise only the editable fields of that one watch change |
| WatchActions.DeleteWatch | src/app/actions/watch.ts:112-128 | not found, then not owner, are the only errors; otherwise exactly that watch is removed |
| WatchActions.Message | src/app/actions/watch.ts:24-26 | each refusal the actions raise carries a message; only the database's foreign-key failure has none of the app's own |
| WatchActions.DeleteWatchIds | src/app/actions/watch.ts:125 | after a delete the watch ids are the old ones minus the deleted id |
| WatchActions.CreateThenDelete | src/app/actions/watch.ts:14-128 | deleting the watch just created restores the store exactly |
| WatchActions.ReadonlyOwnerMayUpdate | src/app/actions/watch.ts:59-128 | a readonly user cannot create, yet can update and delete their own watch |
| WatchActions.UpdateIdempotent | src/app/actions/watch.ts:82-93 | repeating an update gives the same store |
| MovieSearch.GenreMapTargets | src/app/api/search/movie/route.ts:22-42 | every mapped genre is one of the app's genres |
| MovieSearch.MapGenre | src/app/api/search/movie/route.ts:44-51 | no genre exactly when no id is known; otherwise the mapping of the first known id |
| MovieSearch.MapGenreInGenres | src/app/api/search/movie/route.ts:44-51 | a mapped genre is always in the genre table |
| MovieSearch.MapGenreAppend | src/app/api/search/movie/route.ts:45-49 | ids after the first known one never matter |
| MovieSearch.BeforeDash | src/app/api/search/movie/route.ts:100 | the part before the first dash is a dash-free prefix ending at a dash or at the end |
| MovieSearch.PosterUrl | src/app/api/search/movie/route.ts:96-98 | a poster URL exists exactly for a truthy path; it starts with the w500 image base, and the path follows it |
| MovieSearch.Year | src/app/api/search/movie/route.ts:100 | no year exactly for an empty date; otherwise the text before the first dash |
| MovieSearch.BeforeDashOfDate | src/app/api/search/movie/route.ts:100 | for `yyyy-mm-dd` the year is `yyyy` |
| MovieSearch.Search | src/app/api/search/movie/route.ts:53-114 | 400 exactly without a query, 500 exactly without a key or on upstream failure, otherwise 200 with at most ten items in upstream order |
| Stats.TotalIsFlattened | src/app/stats/page.tsx:11 | the total is the number of all listed watches |
| Stats.GenreCountFlatten | src/app/stats/page.tsx:14-18 | a genre's count is its count over all listed watches |
| Stats.StatsFor | src/app/stats/page.tsx:14-20 | each entry carries a positive count equal to its genre's count |
| Stats.StatsForMember | src/app/stats/page.tsx:14-20 | a genre has an entry exactly when it is listed and counted at least once |
| Stats.GenreStatsMember | src/app/stats/page.tsx:14-20 | exactly the app's genres with a watch appear |
| Stats.StatsForOrder | src/app/stats/page.tsx:14-20 | entries follow the order of the genre list |
| Stats.GenreStatsOrder | src/app/stats/page.tsx:14-20 | entries follow the genre table order |
| Stats.UncountedGenre | src/app/stats/page.tsx:17 | a watch with no genre or an unknown genre changes no statistic |
| Stats.StatsForSum | src/app/stats/page.tsx:14-20 | the entries add up to the watches whose genre is listed |
| Stats.GenreStatsWithinTotal | src/app/stats/page.tsx:74 | the genre counts add up to at most the total, so no percentage exceeds 100 |
| Stats.DisplayedGenres | src/app/stats/page.tsx:71-72 | the displayed list is a permutation of the statistics |
| Stats.DisplayedGenresOrder | src/app/stats/page.tsx:71-72 | displayed most watched first, with ties in genre table order |
| Stats.TopCinemas | src/app/stats/page.tsx:23-25 | at most five cinemas, all from the list |
| Stats.TopCinemasRanked | src/app/stats/page.tsx:23-25 | the top list is descending, and no omitted cinema has more watches than any listed one |
| Stats.BrandLabel | src/app/stats/page.tsx:117 | a truthy brand is shown as is, otherwise 기타 |
| FilterStore.SetSelectedBrand | src/stores/useFilterStore.ts:21 | sets the brand and leaves the other fields |
| FilterStore.SetSortOption | src/stores/useFilterStore.ts:22 | sets the sort option and leaves the other fields |
| FilterStore.SetShowFavoritesOnly | src/stores/useFilterStore.ts:23 | sets the favourites switch and leaves the other fields |
| FilterStore.SetSearchQuery | src/stores/useFilterStore.ts:24 | sets the search text and leaves the other fields |
| FilterStore.Reset | src/stores/useFilterStore.ts:17-25 | returns every field to the initial state from any state: no brand, latest, all cinemas, empty text; so a second reset changes nothing |
| FilterStore.LastResetWins | src/stores/useFilterStore.ts:25 | whatever came before a reset is forgotten |
| FilterStore.SettersOverwrite | src/stores/useFilterStore.ts:21-24 | setting a field twice keeps only the second value |
| FilterStore.SettersCommute | src/stores/useFilterStore.ts:21-24 | setters of different fields commute |
| Views.FirstPoster | src/components/cinema/CinemaCard.tsx:13 | no thumbnail exactly when no watch has a truthy poster; otherwise the first such poster |
| Views.CinemaCard | src/components/cinema/CinemaCard.tsx:11-75 | brand label iff a truthy brand, star iff favourite, a badge that parses back to the average iff there is one, the latest title iff there is a watch, and as thumbnail the first truthy poster |
| Views.CardShowsLatestWatch | src/components/cinema/CinemaCard.tsx:12 | the card's latest movie is at least as recent as any watch of that cinema |
| Views.CinemaList | src/components/cinema/CinemaList.tsx:12-86 | loading, no results, no cinemas or cards, each exactly under its condition; one card per cinema |
| Views.CinemaListDistinctCards | src/components/cinema/CinemaList.tsx:80-86 | cinemas with distinct ids get cards with distinct ids, so the React keys `cinema.id` never collide |
| Views.WatchCard | src/components/watch/WatchList.tsx:25-34 | edit and delete are offered exactly to the owner with a handler; "deleting" exactly for the watch being deleted |
| Views.WatchList | src/components/watch/WatchList.tsx:14-39 | the empty message exactly for no watches; otherwise one card per watch in order |
| Views.WatchListActions | src/components/watch/WatchList.tsx:26-33 | at most one card shows as deleting, and nobody gets actions on another user's watch |
| MapStyle.BrandColorsCoverBrands | src/components/map/NaverMap.tsx:33-39 | the colour table's brands are exactly the app's brands, all with a colour |
| MapStyle.BrandColor | src/components/map/NaverMap.tsx:280 | a known truthy brand gets its colour, anything else the "other" colour, always a colour of the table |
| MapStyle.LookOf | src/components/map/NaverMap.tsx:280-281 | a marker shows its brand colour and the cinema's watch count |
| MapStyle.StylesAnchorAtTip | src/components/map/NaverMap.tsx:283-297 | both marker sizes are anchored at the bottom centre; the selected one is larger and above |
| MapStyle.Row | src/components/map/NaverMap.tsx:134-158 | a poster exactly for a truthy URL; a badge exactly for a rating, and it reads back as that rating |
| MapStyle.Content | src/components/map/NaverMap.tsx:128-175 | the header counts all watches; the first four are listed in order; a "+N" footer exactly when more remain, counting them |
| MapStyle.ContentAccountsForAll | src/components/map/NaverMap.tsx:130-132 | listed rows plus the footer count equal the number of watches |
| MapEngine.Mount | src/components/map/NaverMap.tsx:105-113 | the first render's effective selection is the controlled prop when one is given and none otherwise, and the empty map satisfies the invariant |
| MapEngine.FindView | src/components/map/NaverMap.tsx:277 | `cinemas.find` by id fails exactly for an absent id and otherwise gives the first match |
| MapEngine.InvConsequences | src/components/map/NaverMap.tsx:301-373 | in every reachable state at most one window is open, at most one marker is highlighted, and markers exist only once the map is ready |
| MapEngine.Restyle | src/components/map/NaverMap.tsx:273-313 | once ready, every marker is redrawn unselected except the effective selection; nothing else changes |
| MapEngine.RestyleSelects | src/components/map/NaverMap.tsx:301-313 | after a restyle exactly the effective selection's marker is highlighted |
| MapEngine.RestyleKeepsInv | src/components/map/NaverMap.tsx:301-313 | restyling keeps the map invariant |
| MapEngine.PlaceAllKeys | src/components/map/NaverMap.tsx:327-373 | the registry holds exactly one marker key per cinema id |
| MapEngine.PlaceAllMarkers | src/components/map/NaverMap.tsx:327-344 | every new marker is attached, unselected, drawn for a listed cinema |
| MapEngine.BoundsContainAll | src/components/map/NaverMap.tsx:377-389 | the bounds contain every cinema and each side touches one |
| MapEngine.Rebuild | src/components/map/NaverMap.tsx:316-317 | before the map exists the rebuild does nothing |
| MapEngine.RebuildResult | src/components/map/NaverMap.tsx:319-373 | old markers are detached, the window closed, and exactly one fresh unselected marker per cinema id is registered |
| MapEngine.RebuildEffects | src/components/map/NaverMap.tsx:319-396 | a close comes first when a window exists; bounds are fitted with padding 80/50/50/50 exactly for more than one cinema and no center prop |
| MapEngine.RebuildKeepsInv | src/components/map/NaverMap.tsx:316-398 | the rebuild keeps the map invariant |
| MapEngine.Pan | src/components/map/NaverMap.tsx:116-125 | without a map nothing happens; otherwise one pan to the target, and a zoom is queued exactly for a truthy zoom |
| MapEngine.OpenWindowAlone | src/components/map/NaverMap.tsx:352-365 | opening a window closes the previous one, so exactly the new one is open |
| MapEngine.ClickOrder | src/components/map/NaverMap.tsx:346-370 | a click pans, selects, closes any window, opens one for that cinema, then notifies exactly when a handler exists |
| MapEngine.ClickUnknown | src/components/map/NaverMap.tsx:346-372 | only registered markers have a click handler, so a click on an id with no marker changes nothing |
| MapEngine.ClickHighlights | src/components/map/NaverMap.tsx:346-349 | an uncontrolled click on another marker highlights exactly it; a controlled click leaves markers and the effective selection alone |
| MapEngine.PanToCinema | src/components/map/NaverMap.tsx:179-204 | pans, selects the cinema, and schedules the zoom to 17 and the delayed open with the list captured now |
| MapEngine.MyLocation | src/components/map/NaverMap.tsx:462-465 | pans to the default center and keeps the zoom |
| MapEngine.FireTimer | src/components/map/NaverMap.tsx:184-203 | the delayed open acts exactly when the marker exists, the map is ready and the captured list has the cinema |
| MapEngine.FireOpenShowsCaptured | src/components/map/NaverMap.tsx:184-203 | the delayed window shows the captured list's data, which may be stale |
| MapEngine.MapClick | src/components/map/NaverMap.tsx:227-232 | a map click acts only while a window exists: it closes it and clears the selection |
| MapEngine.MapClickCloses | src/components/map/NaverMap.tsx:227-232 | after a map click no window is open |
| MapEngine.CenterGuard | src/components/map/NaverMap.tsx:264-270 | the map is recentred exactly when it exists and the target differs from the initial center |
| MapEngine.CinemasChangedDropsHighlight | src/components/map/NaverMap.tsx:301-398 | after new cinema data no marker is highlighted, although the effective selection is unchanged |
| MapEngine.SelectionChangedHighlights | src/components/map/NaverMap.tsx:113-313 | a new controlled selection is highlighted alone; the same one leaves markers untouched |
| MapEngine.MarkerClickChanged | src/components/map/NaverMap.tsx:398 | a new `onMarkerClick` prop is recorded, and without a map nothing else happens |
| MapEngine.MarkerClickRewires | src/components/map/NaverMap.tsx:367-372 | after a new `onMarkerClick` prop every listed cinema's marker is rebuilt with a handler that calls the parent exactly when the prop is set |
| MapEngine.LibraryReady | src/components/map/NaverMap.tsx:211-233 | once the library loads, the map is created exactly once at zoom 15, centred on the `center` prop or else the default center, and that center is recorded as the initial one |
| MapEngine.NextKeepsInv | src/components/map/NaverMap.tsx:179-398 | every event keeps the map invariant |

## Left out

- Database I/O, `revalidatePath`, the ORM and id generation: ids and timestamps are inputs.
- Floating-point arithmetic: ratings are exact tenths, coordinates are integers, and TMDB's `vote_average` is an exact `real` that is only passed through.
- WatchActions.CreateWatch: ratings are assumed to be 0.0 to 9.9 in tenths, as the rating widget is expected to send. Negative ratings are not modelled. The database's out-of-range error for 10 or more is not modelled, and neither is its rounding of extra decimals in `rating.toString()`.
- WatchActions.UpdateWatch: the same rating assumption as `CreateWatch`. Negative ratings, the out-of-range error and decimal rounding are not modelled.
- The TMDB HTTP call: its result is an input, and a failure is `None`.
- HTML, SVG and CSS text: only what each piece shows is kept.
- Navigation, toasts, React Query caching and the pages that only wire components together.
- The `naver.maps` script loader and the "missing client id" message.
- The "my location" marker, the global `__goToCinema__` hook and the unmount cleanup.
- The map's animation durations and the viewport that `fitBounds` produces: only the call and its arguments are kept.
- CinemaActions.WatchesOf: watches with the same `watchedAt` date come back from the database in an unspecified order, and so do cinemas with the same `createdAt` under "latest". The model fixes that order as storage order. The tie order decides the card's latest title and thumbnail and the order of the watch list, so those are exact only up to ties.
- CinemaActions.DbOrder: with "name" the rows keep their stored order, because database collation is not modelled; with "rating" the database order is unspecified, and it is modelled as stored order.
- MapStyle.BrandColor: a brand such as `constructor` that names an inherited property of a JavaScript object literal is treated as unknown, because prototype lookup is not modelled.
- MapStyle.LookOf: the `?? watches.length ?? 0` fallbacks are left out, because the server always fills in `watchCount`.
- MapEngine.RebuildResult: when two cinemas share an id the registry keeps only the last marker while both stay on the map; the contract states the registry side only.
- The unused `isSelected` branch of `createMarkerIcon` is left out, because no caller passes it.
- Concurrency of server actions: each action is one atomic step on the store.

=== FILE: cinema_actions.dfy ===
/** The cinema server actions: listing with aggregation, lookup by id,
    creation with name-based dedupe, and the favourite toggle. */
module CinemaActions {
  import opened Wrappers
  import opened Schema
  import opened Sorting
  import opened Constants
  import opened Ratings

  /** A cinema with its watches (most recent first) and their aggregates. */
  datatype CinemaView = CinemaView(
    cinema: Cinema,
    watches: seq<Watch>,
    averageRating: Option<Tenths>,
    watchCount: nat)

  // ---------------------------------------------------------------------------
  // Reading

  function WatchedAt(w: Watch): int { w.watchedAt }

  function CreatedAt(c: Cinema): int { c.createdAt }

  /** The watches that reference cinema `id`, in storage order. */
  function OfCinema(ws: seq<Watch>, id: string): (r: seq<Watch>)
    ensures forall i :: 0 <= i < |r| ==> r[i].cinemaId == id
    ensures multiset(r) <= multiset(ws)
  {
    if |ws| == 0 then []
    else
      assert ws == [ws[0]] + ws[1..];
      var rest := OfCinema(ws[1..], id);
      if ws[0].cinemaId == id then [ws[0]] + rest else rest
  }

  lemma {:induction false} OfCinemaMember(ws: seq<Watch>, id: string, w: Watch)
    ensures w in OfCinema(ws, id) <==> w in ws && w.cinemaId == id
  {
    if |ws| > 0 {
      assert ws == [ws[0]] + ws[1..];
      OfCinemaMember(ws[1..], id, w);
    }
  }

  /** The watches of cinema `id`, ordered by `watched_at` descending. */
  function WatchesOf(st: Store, id: string): (r: seq<Watch>)
    ensures forall i :: 0 <= i < |r| ==> r[i].cinemaId == id
    ensures multiset(r) == multiset(OfCinema(st.watches, id))
  {
    var mine := OfCinema(st.watches, id);
    var r := SortDesc(mine, WatchedAt);
    forall i | 0 <= i < |r| ensures r[i].cinemaId == id {
      assert r[i] in multiset(mine);
    }
    r
  }

  /** A cinema's watches come most recent first. */
  lemma WatchesOfNewestFirst(st: Store, id: string)
    ensures SortedDesc(WatchesOf(st, id), WatchedAt)
  {
    SortDescSorted(OfCinema(st.watches, id), WatchedAt);
  }

  /** Exactly the cinema's watches are joined to it. */
  lemma WatchesOfMember(st: Store, id: string, w: Watch)
    ensures w in WatchesOf(st, id) <==> w in st.watches && w.cinemaId == id
  {
    OfCinemaMember(st.watches, id, w);
    assert w in WatchesOf(st, id) <==> w in multiset(WatchesOf(st, id));
    assert w in OfCinema(st.watches, id) <==> w in multiset(OfCinema(st.watches, id));
  }

  /** A cinema row joined with its watches, plus `averageRating` and `watchCount`. */
  function Summarize(st: Store, c: Cinema): CinemaView {
    var ws := WatchesOf(st, c.id);
    CinemaView(c, ws, AverageRating(ws), |ws|)
  }

  /** The brand condition of the query: a truthy brand must match exactly. */
  predicate MatchesBrand(brand: Option<string>, c: Cinema) {
    Truthy(brand) ==> c.brand == brand
  }

  /** The cinemas that satisfy the brand condition, in storage order. */
  function WithBrand(cs: seq<Cinema>, brand: Option<string>): (r: seq<Cinema>)
    ensures forall i :: 0 <= i < |r| ==> MatchesBrand(brand, r[i])
    ensures multiset(r) <= multiset(cs)
  {
    if |cs| == 0 then []
    else
      assert cs == [cs[0]] + cs[1..];
      var rest := WithBrand(cs[1..], brand);
      if MatchesBrand(brand, cs[0]) then [cs[0]] + rest else rest
  }

  lemma {:induction false} WithBrandMember(cs: seq<Cinema>, brand: Option<string>, c: Cinema)
    ensures c in WithBrand(cs, brand) <==> c in cs && MatchesBrand(brand, c)
  {
    if |cs| > 0 {
      assert cs == [cs[0]] + cs[1..];
      WithBrandMember(cs[1..], brand, c);
    }
  }

  /** The order the database returns rows in: newest first for "latest";
      for "name" the collation order is the database's, and for "rating"
      no order is requested, so both keep storage order. */
  function DbOrder(cs: seq<Cinema>, sort: SortOption): (r: seq<Cinema>)
    ensures multiset(r) == multiset(cs)
    ensures sort == Latest ==> SortedDesc(r, CreatedAt)
  {
    if sort == Latest then
      SortDescSorted(cs, CreatedAt);
      SortDesc(cs, CreatedAt)
    else cs
  }

  /** The rows the query returns: cinemas that satisfy the brand condition. */
  function QueryRows(st: Store, brand: Option<string>, sort: SortOption): (r: seq<Cinema>)
    ensures forall i :: 0 <= i < |r| ==> MatchesBrand(brand, r[i])
    ensures sort == Latest ==> SortedDesc(r, CreatedAt)
  {
    var kept := WithBrand(st.cinemas, brand);
    var r := DbOrder(kept, sort);
    forall i | 0 <= i < |r| ensures MatchesBrand(brand, r[i]) {
      assert r[i] in multiset(kept);
    }
    r
  }

  lemma QueryRowsMember(st: Store, brand: Option<string>, sort: SortOption, c: Cinema)
    ensures c in QueryRows(st, brand, sort) <==> c in st.cinemas && MatchesBrand(brand, c)
  {
    var kept := WithBrand(st.cinemas, brand);
    WithBrandMember(st.cinemas, brand, c);
    assert c in QueryRows(st, brand, sort) <==> c in multiset(QueryRows(st, brand, sort));
    assert c in kept <==> c in multiset(kept);
  }

  /** Some watch references the cinema. */
  predicate HasWatches(st: Store, c: Cinema) {
    exists i :: 0 <= i < |st.watches| && st.watches[i].cinemaId == c.id
  }

  /** A cinema has a watch exactly when its joined list of watches is non-empty. */
  lemma HasWatchesJoined(st: Store, c: Cinema)
    ensures HasWatches(st, c) <==> |WatchesOf(st, c.id)| > 0
  {
    if HasWatches(st, c) {
      var i :| 0 <= i < |st.watches| && st.watches[i].cinemaId == c.id;
      WatchesOfMember(st, c.id, st.watches[i]);
    }
    if |WatchesOf(st, c.id)| > 0 {
      var w := WatchesOf(st, c.id)[0];
      WatchesOfMember(st, c.id, w);
      var i :| 0 <= i < |st.watches| && st.watches[i] == w;
    }
  }

  /** The rows that have at least one watch, in order. */
  function Watched(st: Store, rows: seq<Cinema>): (r: seq<Cinema>)
    ensures forall i :: 0 <= i < |r| ==> HasWatches(st, r[i]) && r[i] in rows
  {
    if |rows| == 0 then []
    else
      var rest := Watched(st, rows[1..]);
      assert forall c :: c in rows[1..] ==> c in rows;
      if HasWatches(st, rows[0]) then [rows[0]] + rest else rest
  }

  lemma {:induction false} WatchedMember(st: Store, rows: seq<Cinema>, c: Cinema)
    ensures c in Watched(st, rows) <==> c in rows && HasWatches(st, c)
  {
    if |rows| > 0 {
      assert rows == [rows[0]] + rows[1..];
      WatchedMember(st, rows[1..], c);
    }
  }

  /** Dropping rows keeps a newest-first order. */
  lemma {:induction false} WatchedKeepsOrder(st: Store, rows: seq<Cinema>)
    requires SortedDesc(rows, CreatedAt)
    ensures SortedDesc(Watched(st, rows), CreatedAt)
  {
    if |rows| > 0 {
      assert SortedDesc(rows[1..], CreatedAt);
      WatchedKeepsOrder(st, rows[1..]);
      var rest := Watched(st, rows[1..]);
      forall i | 0 <= i < |rest| ensures rows[0].createdAt >= rest[i].createdAt {
        var k :| 0 <= k < |rows[1..]| && rows[1..][k] == rest[i];
        assert rows[k + 1] == rest[i];
      }
    }
  }

  /** Summarizes every row, in order. */
  function SummarizeAll(st: Store, rows: seq<Cinema>): (r: seq<CinemaView>)
    ensures |r| == |rows|
    ensures forall i :: 0 <= i < |r| ==> r[i] == Summarize(st, rows[i])
  {
    seq(|rows|, i requires 0 <= i < |rows| => Summarize(st, rows[i]))
  }

  function ViewCreatedAt(v: CinemaView): int { v.cinema.createdAt }

  /** The sort key of the "rating" order: rated cinemas by average, unrated ones last. */
  function RatingKey(v: CinemaView): int {
    match v.averageRating
    case Some(t) => t
    case None => -1
  }

  /** The list before the "rating" order is applied: watched rows, summarized. */
  function Unsorted(st: Store, brand: Option<string>, sort: SortOption): seq<CinemaView> {
    SummarizeAll(st, Watched(st, QueryRows(st, brand, sort)))
  }

  /** `getCinemas(brand, sort)`. */
  function GetCinemas(st: Store, brand: Option<string>, sort: SortOption): (r: seq<CinemaView>)
    ensures multiset(r) == multiset(Unsorted(st, brand, sort))
    ensures sort != Rating ==> r == Unsorted(st, brand, sort)
  {
    var mapped := Unsorted(st, brand, sort);
    if sort == Rating then SortDesc(mapped, RatingKey) else mapped
  }

  /** Every listed cinema satisfies the brand condition and carries its
      watches, newest first, with their count and rounded average. */
  lemma GetCinemasRows(st: Store, brand: Option<string>, sort: SortOption)
    ensures forall v :: v in GetCinemas(st, brand, sort) ==>
      && v.cinema in st.cinemas
      && MatchesBrand(brand, v.cinema)
      && v.watchCount == |v.watches| > 0
      && v.watches == WatchesOf(st, v.cinema.id)
      && v.averageRating == AverageRating(v.watches)
  {
    var rows := QueryRows(st, brand, sort);
    var kept := Watched(st, rows);
    var mapped := SummarizeAll(st, kept);
    var r := GetCinemas(st, brand, sort);
    forall v | v in r
      ensures v.cinema in st.cinemas && MatchesBrand(brand, v.cinema)
      ensures v.watchCount == |v.watches| > 0 && v.watches == WatchesOf(st, v.cinema.id)
      ensures v.averageRating == AverageRating(v.watches)
    {
      assert v in multiset(mapped);
      var k :| 0 <= k < |mapped| && mapped[k] == v;
      var j :| 0 <= j < |rows| && rows[j] == kept[k];
      QueryRowsMember(st, brand, sort, rows[j]);
      HasWatchesJoined(st, rows[j]);
    }
  }

  /** Some view in `vs` is about cinema `c`. */
  predicate Lists(vs: seq<CinemaView>, c: Cinema) {
    exists i :: 0 <= i < |vs| && vs[i].cinema == c
  }

  lemma ListsPermutation(a: seq<CinemaView>, b: seq<CinemaView>, c: Cinema)
    requires multiset(a) == multiset(b)
    ensures Lists(a, c) <==> Lists(b, c)
  {
    if Lists(a, c) {
      var i :| 0 <= i < |a| && a[i].cinema == c;
      assert a[i] in multiset(b);
      var j :| 0 <= j < |b| && b[j] == a[i];
    }
    if Lists(b, c) {
      var i :| 0 <= i < |b| && b[i].cinema == c;
      assert b[i] in multiset(a);
      var j :| 0 <= j < |a| && a[j] == b[i];
    }
  }

  lemma ListsSummarizeAll(st: Store, rows: seq<Cinema>, c: Cinema)
    ensures Lists(SummarizeAll(st, rows), c) <==> c in rows
  {
    var r := SummarizeAll(st, rows);
    if c in rows {
      var k :| 0 <= k < |rows| && rows[k] == c;
      assert r[k].cinema == c;
    }
  }

  /** A cinema is listed exactly when it satisfies the brand condition and has a watch. */
  lemma GetCinemasMember(st: Store, brand: Option<string>, sort: SortOption, c: Cinema)
    ensures Lists(GetCinemas(st, brand, sort), c)
        <==> c in st.cinemas && MatchesBrand(brand, c) && HasWatches(st, c)
  {
    var rows := QueryRows(st, brand, sort);
    var kept := Watched(st, rows);
    QueryRowsMember(st, brand, sort, c);
    WatchedMember(st, rows, c);
    ListsSummarizeAll(st, kept, c);
    ListsPermutation(GetCinemas(st, brand, sort), Unsorted(st, brand, sort), c);
  }

  /** "latest": newest cinema first. */
  lemma GetCinemasLatest(st: Store, brand: Option<string>)
    ensures SortedDesc(GetCinemas(st, brand, Latest), ViewCreatedAt)
  {
    var rows := QueryRows(st, brand, Latest);
    WatchedKeepsOrder(st, rows);
  }

  /** "rating": highest average first, cinemas without any rating last. */
  lemma GetCinemasByRating(st: Store, brand: Option<string>)
    ensures forall i, j :: 0 <= i < j < |GetCinemas(st, brand, Rating)| ==>
      var r := GetCinemas(st, brand, Rating);
      && (r[i].averageRating.None? ==> r[j].averageRating.None?)
      && (r[j].averageRating.Some? ==>
            r[i].averageRating.Some? && r[i].averageRating.value >= r[j].averageRating.value)
  {
    SortDescSorted(Unsorted(st, brand, Rating), RatingKey);
    RatingKeyOrder(GetCinemas(st, brand, Rating));
  }

  /** Non-increasing rating keys mean: nulls last, averages non-increasing. */
  lemma RatingKeyOrder(r: seq<CinemaView>)
    requires SortedDesc(r, RatingKey)
    ensures forall i, j :: 0 <= i < j < |r| ==>
      && (r[i].averageRating.None? ==> r[j].averageRating.None?)
      && (r[j].averageRating.Some? ==>
            r[i].averageRating.Some? && r[i].averageRating.value >= r[j].averageRating.value)
  {
    forall i, j | 0 <= i < j < |r|
      ensures r[i].averageRating.None? ==> r[j].averageRating.None?
      ensures r[j].averageRating.Some? ==>
            r[i].averageRating.Some? && r[i].averageRating.value >= r[j].averageRating.value
    {
      assert RatingKey(r[i]) >= RatingKey(r[j]);
    }
  }

  /** Cinemas with equal ratings keep the order the database returned them in. */
  lemma RatingSortStable(st: Store, brand: Option<string>, k: int)
    ensures WithKey(GetCinemas(st, brand, Rating), RatingKey, k)
         == WithKey(Unsorted(st, brand, Rating), RatingKey, k)
  {
    SortDescStable(Unsorted(st, brand, Rating), RatingKey, k);
  }

  /** `findFirst({ where })`: the first cinema row that satisfies the condition. */
  function FindRow(cs: seq<Cinema>, p: Cinema -> bool): (r: Option<Cinema>)
    ensures r.None? <==> forall i :: 0 <= i < |cs| ==> !p(cs[i])
    ensures r.Some? ==> r.value in cs && p(r.value)
  {
    if |cs| == 0 then None
    else if p(cs[0]) then Some(cs[0])
    else
      assert forall i :: 1 <= i < |cs| ==> cs[i] == cs[1..][i - 1];
      FindRow(cs[1..], p)
  }

  /** `getCinemaById(id)`: `null` for an unknown id; no filter on the number of watches. */
  function GetCinemaById(st: Store, id: string): (r: Option<CinemaView>)
    ensures r.None? <==> id !in CinemaIds(st)
    ensures r.Some? ==>
      && r.value.cinema in st.cinemas && r.value.cinema.id == id
      && r.value.watches == WatchesOf(st, id)
      && r.value.watchCount == |r.value.watches|
      && r.value.averageRating == AverageRating(r.value.watches)
  {
    match FindRow(st.cinemas, (c: Cinema) => c.id == id)
    case None => None
    case Some(c) => Some(Summarize(st, c))
  }

  /** A cinema without watches is still found by id, yet never listed. */
  lemma UnwatchedCinemaOnlyById(st: Store, c: Cinema, brand: Option<string>, sort: SortOption)
    requires Valid(st) && c in st.cinemas
    requires forall i :: 0 <= i < |st.watches| ==> st.watches[i].cinemaId != c.id
    ensures GetCinemaById(st, c.id) == Some(CinemaView(c, [], None, 0))
    ensures !Lists(GetCinemas(st, brand, sort), c)
  {
    var r := GetCinemaById(st, c.id);
    var k :| 0 <= k < |st.cinemas| && st.cinemas[k] == c;
    assert r.value.cinema == c by {
      var j :| 0 <= j < |st.cinemas| && st.cinemas[j] == r.value.cinema;
      assert j == k;
    }
    HasWatchesJoined(st, c);
    GetCinemasMember(st, brand, sort, c);
  }

  // ---------------------------------------------------------------------------
  // Writing

  datatype NewCinema = NewCinema(
    name: string, address: string, latitude: int, longitude: int, brand: Option<string>)

  /** `createCinema(data)`: a cinema with the same name (the address is not
      compared) is returned as is; otherwise one row is inserted with the
      database's defaults for `id`, `is_favorite` and `created_at`. */
  function CreateCinema(st: Store, data: NewCinema, freshId: string, now: int): (m: Mutation<Cinema>)
    requires Valid(st) && freshId !in CinemaIds(st)
    ensures Valid(m.store)
    ensures (exists i :: 0 <= i < |st.cinemas| && st.cinemas[i].name == data.name) ==>
      m.store == st && m.result in st.cinemas && m.result.name == data.name
    ensures (forall i :: 0 <= i < |st.cinemas| ==> st.cinemas[i].name != data.name) ==>
      && m.store.cinemas == st.cinemas + [m.result]
      && m.store.watches == st.watches
      && m.result.id == freshId && m.result.createdAt == now
      && m.result.name == data.name && m.result.address == data.address
      && m.result.latitude == data.latitude && m.result.longitude == data.longitude
      && m.result.brand == data.brand
      && !m.result.isFavorite
  {
    match FindRow(st.cinemas, (c: Cinema) => c.name == data.name)
    case Some(existing) => Mutation(st, existing)
    case None =>
      var c := Cinema(freshId, data.name, data.address, data.latitude, data.longitude,
                      data.brand, false, now);
      var st' := Store(st.cinemas + [c], st.watches);
      assert CinemaIds(st) <= CinemaIds(st') by {
        forall x | x in CinemaIds(st) ensures x in CinemaIds(st') {
          var i :| 0 <= i < |st.cinemas| && st.cinemas[i].id == x;
          assert st'.cinemas[i].id == x;
        }
      }
      assert forall i :: 0 <= i < |st.cinemas| ==> st.cinemas[i].id in CinemaIds(st);
      Mutation(st', c)
  }

  /** `toggleFavorite(id)`: `null` for an unknown id; otherwise the flag is flipped
      and nothing else changes. */
  function ToggleFavorite(st: Store, id: string): (m: Mutation<Option<Cinema>>)
    requires Valid(st)
    ensures Valid(m.store)
    ensures m.result.None? <==> id !in CinemaIds(st)
    ensures m.result.None? ==> m.store == st
    ensures m.result.Some? ==>
      && m.store.watches == st.watches
      && |m.store.cinemas| == |st.cinemas|
      && exists k :: 0 <= k < |st.cinemas| && st.cinemas[k].id == id
           && m.result.value == st.cinemas[k].(isFavorite := !st.cinemas[k].isFavorite)
           && m.store.cinemas == st.cinemas[k := m.result.value]
  {
    match FindRow(st.cinemas, (c: Cinema) => c.id == id)
    case None => Mutation(st, None)
    case Some(c) =>
      var k :| 0 <= k < |st.cinemas| && st.cinemas[k] == c;
      var updated := c.(isFavorite := !c.isFavorite);
      var st' := Store(st.cinemas[k := updated], st.watches);
      assert CinemaIds(st') == CinemaIds(st) by {
        forall x | x in CinemaIds(st) ensures x in CinemaIds(st') {
          var i :| 0 <= i < |st.cinemas| && st.cinemas[i].id == x;
          assert st'.cinemas[i].id == x;
        }
      }
      Mutation(st', Some(updated))
  }

  /** Toggling the cinema stored at `k` flips exactly row `k`. */
  lemma ToggleAt(st: Store, k: nat)
    requires Valid(st) && k < |st.cinemas|
    ensures ToggleFavorite(st, st.cinemas[k].id).store
      == Store(st.cinemas[k := st.cinemas[k].(isFavorite := !st.cinemas[k].isFavorite)], st.watches)
  {
    var id := st.cinemas[k].id;
    assert id in CinemaIds(st);
    var m := ToggleFavorite(st, id);
    var j :| 0 <= j < |st.cinemas| && st.cinemas[j].id == id
      && m.result.value == st.cinemas[j].(isFavorite := !st.cinemas[j].isFavorite)
      && m.store.cinemas == st.cinemas[j := m.result.value];
    assert j == k;
  }

  /** Toggling twice restores the store: the flag is the only thing a toggle writes. */
  lemma ToggleTwice(st: Store, id: string)
    requires Valid(st)
    ensures ToggleFavorite(ToggleFavorite(st, id).store, id).store == st
  {
    if id in CinemaIds(st) {
      var k :| 0 <= k < |st.cinemas| && st.cinemas[k].id == id;
      ToggleAt(st, k);
      var st1 := ToggleFavorite(st, id).store;
      assert st1.cinemas[k].id == id;
      ToggleAt(st1, k);
      assert st1.cinemas[k := st.cinemas[k]] == st.cinemas;
    }
  }
}

=== FILE: constants.dfy ===
/** The application's fixed tables: genres, cinema brands, sort options and users. */
module Constants {
  import opened Wrappers

  /** No value occurs twice. */
  predicate Distinct<T(==)>(s: seq<T>) {
    forall i, j :: 0 <= i < j < |s| ==> s[i] != s[j]
  }

  /** The genres a watch may be filed under, in display order. */
  const GENRES: seq<string> :=
    ["액션", "로맨스", "코미디", "공포/스릴러", "SF/판타지", "드라마", "애니메이션", "기타"]

  /** The brands a cinema may carry. */
  const CINEMA_BRANDS: seq<string> :=
    ["CGV", "메가박스", "롯데시네마", "독립/예술영화관", "기타"]

  datatype SortOption = Latest | Rating | Name

  datatype SortChoice = SortChoice(value: SortOption, caption: string)

  const SORT_OPTIONS: seq<SortChoice> :=
    [SortChoice(Latest, "최신순"), SortChoice(Rating, "별점순"), SortChoice(Name, "이름순")]

  /** A user; `readonly` is an optional flag, absent meaning false. */
  datatype User = User(id: string, name: string, readonly: Option<bool>)

  const USERS: seq<User> :=
    [User("minju", "민주", None), User("guest", "Guest", Some(true))]

  lemma GenresTable()
    ensures |GENRES| == 8 && Distinct(GENRES)
    ensures GENRES[0] == "액션" && GENRES[7] == "기타"
  {
  }

  lemma BrandsTable()
    ensures |CINEMA_BRANDS| == 5 && Distinct(CINEMA_BRANDS)
  {
  }

  /** Some entry of the sort menu offers `o`. */
  predicate Offered(o: SortOption) {
    exists i :: 0 <= i < |SORT_OPTIONS| && SORT_OPTIONS[i].value == o
  }

  /** Every sort option is offered exactly once. */
  lemma SortOptionsTable()
    ensures |SORT_OPTIONS| == 3
    ensures forall o: SortOption :: Offered(o)
    ensures forall i, j :: 0 <= i < j < |SORT_OPTIONS| ==> SORT_OPTIONS[i].value != SORT_OPTIONS[j].value
  {
    forall o: SortOption
      ensures Offered(o)
    {
      match o
      case Latest => assert SORT_OPTIONS[0].value == o;
      case Rating => assert SORT_OPTIONS[1].value == o;
      case Name => assert SORT_OPTIONS[2].value == o;
    }
  }
}

=== FILE: filter_store.dfy ===
/** The client-side filter store: the brand filter, the sort option, the
    favourites-only switch and the search text, with one setter each and a reset. */
module FilterStore {
  import opened Wrappers
  import opened Constants

  datatype FilterState = FilterState(
    selectedBrand: Option<string>,
    sortOption: SortOption,
    showFavoritesOnly: bool,
    searchQuery: string)

  /** The state the store is created with. */
  const INITIAL: FilterState := FilterState(None, Latest, false, "")

  function SetSelectedBrand(s: FilterState, brand: Option<string>): (r: FilterState)
    ensures r.selectedBrand == brand
    ensures r.sortOption == s.sortOption && r.showFavoritesOnly == s.showFavoritesOnly
      && r.searchQuery == s.searchQuery
  {
    s.(selectedBrand := brand)
  }

  function SetSortOption(s: FilterState, option: SortOption): (r: FilterState)
    ensures r.sortOption == option
    ensures r.selectedBrand == s.selectedBrand && r.showFavoritesOnly == s.showFavoritesOnly
      && r.searchQuery == s.searchQuery
  {
    s.(sortOption := option)
  }

  function SetShowFavoritesOnly(s: FilterState, show: bool): (r: FilterState)
    ensures r.showFavoritesOnly == show
    ensures r.selectedBrand == s.selectedBrand && r.sortOption == s.sortOption
      && r.searchQuery == s.searchQuery
  {
    s.(showFavoritesOnly := show)
  }

  function SetSearchQuery(s: FilterState, query: string): (r: FilterState)
    ensures r.searchQuery == query
    ensures r.selectedBrand == s.selectedBrand && r.sortOption == s.sortOption
      && r.showFavoritesOnly == s.showFavoritesOnly
  {
    s.(searchQuery := query)
  }

  /** All four fields back to their initial values at once. */
  function Reset(s: FilterState): (r: FilterState)
    ensures r == INITIAL
    ensures r.selectedBrand.None? && r.sortOption == Latest && !r.showFavoritesOnly && r.searchQuery == ""
  {
    FilterState(None, Latest, false, "")
  }

  /** The operations the store offers. */
  datatype Action =
    | SelectBrand(brand: Option<string>)
    | ChooseSort(option: SortOption)
    | ShowFavoritesOnly(show: bool)
    | Search(query: string)
    | ResetAll

  datatype Field = BrandField | SortField | FavoritesField | QueryField

  /** The one field a setter writes; a reset writes all of them. */
  function Writes(a: Action): Option<Field> {
    match a
    case SelectBrand(_) => Some(BrandField)
    case ChooseSort(_) => Some(SortField)
    case ShowFavoritesOnly(_) => Some(FavoritesField)
    case Search(_) => Some(QueryField)
    case ResetAll => None
  }

  function Apply(s: FilterState, a: Action): FilterState {
    match a
    case SelectBrand(b) => SetSelectedBrand(s, b)
    case ChooseSort(o) => SetSortOption(s, o)
    case ShowFavoritesOnly(f) => SetShowFavoritesOnly(s, f)
    case Search(q) => SetSearchQuery(s, q)
    case ResetAll => Reset(s)
  }

  function ApplyAll(s: FilterState, actions: seq<Action>): FilterState
    decreases |actions|
  {
    if |actions| == 0 then s else ApplyAll(Apply(s, actions[0]), actions[1..])
  }

  /** After a reset, the state is the initial one whatever the actions before. */
  lemma {:induction false} LastResetWins(s: FilterState, before: seq<Action>, after: seq<Action>)
    ensures ApplyAll(s, before + [ResetAll] + after) == ApplyAll(INITIAL, after)
    decreases |before|
  {
    if |before| == 0 {
      assert before + [ResetAll] + after == [ResetAll] + after;
    } else {
      assert (before + [ResetAll] + after)[1..] == before[1..] + [ResetAll] + after;
      LastResetWins(Apply(s, before[0]), before[1..], after);
    }
  }

  /** Setting a field twice keeps only the second value. */
  lemma SettersOverwrite(s: FilterState, a: Action, b: Action)
    requires Writes(a).Some? && Writes(a) == Writes(b)
    ensures Apply(Apply(s, a), b) == Apply(s, b)
  {
  }

  /** Setters of different fields commute. */
  lemma SettersCommute(s: FilterState, a: Action, b: Action)
    requires Writes(a).Some? && Writes(b).Some? && Writes(a) != Writes(b)
    ensures Apply(Apply(s, a), b) == Apply(Apply(s, b), a)
  {
  }
}

=== FILE: map_engine.dfy ===
/** The map component as a state machine. Its refs (map instance, marker
    registry, info window), its `selectedId` state and its props form one
    record; every event (a prop change, the library becoming ready, a click, a
    timer firing) is a function from a state to the next state plus the calls
    made on the map, in the order they are made.

    React runs the effects of one commit in declaration order: the selection
    restyle before the marker rebuild. A state update made in a handler is
    followed by a render whose effects run only when their dependencies changed;
    for the restyle effect that is a change of the effective selection. Timers
    become entries of `timers`, fired one at a time in any order. */
module MapEngine {
  import opened Wrappers
  import opened Schema
  import opened CinemaActions
  import opened MapStyle

  /** A position; coordinates are kept as abstract ordered integers. */
  datatype LatLng = LatLng(lat: int, lng: int)

  /** Gangnam, Seoul, in units of 1e-4 degree. */
  const DEFAULT_CENTER: LatLng := LatLng(375013, 1270396)
  const INITIAL_ZOOM: int := 15
  const CINEMA_ZOOM: int := 17

  function Position(c: Cinema): LatLng {
    LatLng(c.latitude, c.longitude)
  }

  /** `selectedCinemaId`: absent (`undefined`), or given, possibly as `null`. */
  datatype Selection = Uncontrolled | Controlled(id: Option<string>)

  datatype Props = Props(
    cinemas: seq<CinemaView>,
    center: Option<LatLng>,
    selectedCinemaId: Selection,
    hasMarkerClick: bool)

  /** A marker on the map: its handle, the cinema its click handler captured,
      its image and whether its handler calls `onMarkerClick`. */
  datatype Marker = Marker(handle: nat, cinema: CinemaView, look: Look, notifies: bool)

  datatype InfoWindow = InfoWindow(handle: nat, content: InfoContent, anchor: nat)

  datatype Bounds = Bounds(south: int, west: int, north: int, east: int)

  datatype Padding = Padding(top: int, right: int, bottom: int, left: int)

  const FIT_PADDING: Padding := Padding(80, 50, 50, 50)

  /** A pending `setTimeout` callback. `OpenAfterPan` keeps the cinema list the
      callback closed over. */
  datatype Timer = ApplyZoom(zoom: int) | OpenAfterPan(cinemaId: string, cinemas: seq<CinemaView>)

  /** A call made on the map library or on the parent. */
  datatype Effect =
    | PanTo(target: LatLng)
    | SetZoom(zoom: int)
    | SetCenter(center: LatLng)
    | Select(id: Option<string>)
    | Close(window: nat)
    | Open(window: nat, cinemaId: string, anchor: nat)
    | Notify(cinemaId: string)
    | FitBounds(bounds: Bounds, padding: Padding)

  /** `ready`: the library is loaded and the map instance exists (the first
      implies the second once the init effect has run, and nothing destroys the
      map). `infoWindow` is the info-window ref, which is never reset to null;
      `open` is the set of info windows currently open. */
  datatype MapState = MapState(
    props: Props,
    ready: bool,
    initialCenter: LatLng,
    center: LatLng,
    zoom: int,
    markers: map<string, Marker>,
    attached: set<nat>,
    selectedId: Option<string>,
    infoWindow: Option<InfoWindow>,
    open: set<nat>,
    timers: seq<Timer>,
    nextHandle: nat)

  datatype Step = Step(state: MapState, effects: seq<Effect>)

  // ---------------------------------------------------------------------------
  // Selection and lookups

  /** `selectedCinemaId !== undefined ? selectedCinemaId : selectedId`. */
  function Effective(s: MapState): Option<string> {
    match s.props.selectedCinemaId
    case Controlled(id) => id
    case Uncontrolled => s.selectedId
  }

  /** The component as first rendered: `selectedId` starts as
      `selectedCinemaId ?? null` and nothing is on the map yet. */
  function Mount(p: Props): (r: MapState)
    ensures Effective(r) == match p.selectedCinemaId { case Controlled(id) => id case Uncontrolled => None }
    ensures Inv(r)
  {
    var initial := match p.selectedCinemaId { case Controlled(id) => id case Uncontrolled => None };
    MapState(p, false, DEFAULT_CENTER, DEFAULT_CENTER, INITIAL_ZOOM, map[], {}, initial, None, {}, [], 0)
  }

  function Ids(cs: seq<CinemaView>): set<string> {
    set v | v in cs :: v.cinema.id
  }

  /** `cs[i]` is the first cinema with that id. */
  predicate FirstView(cs: seq<CinemaView>, id: string, i: int) {
    0 <= i < |cs| && cs[i].cinema.id == id && forall j :: 0 <= j < i ==> cs[j].cinema.id != id
  }

  /** `cinemas.find(c => c.id === id)`. */
  function FindView(cs: seq<CinemaView>, id: string): (r: Option<CinemaView>)
    ensures r.None? <==> id !in Ids(cs)
    ensures r.Some? ==> exists i :: FirstView(cs, id, i) && cs[i] == r.value
  {
    if |cs| == 0 then None
    else if cs[0].cinema.id == id then
      assert FirstView(cs, id, 0);
      Some(cs[0])
    else
      var r := FindView(cs[1..], id);
      assert Ids(cs) == {cs[0].cinema.id} + Ids(cs[1..]) by {
        assert cs == [cs[0]] + cs[1..];
      }
      if r.Some? then
        var i :| FirstView(cs[1..], id, i) && cs[1..][i] == r.value;
        assert FirstView(cs, id, i + 1) by {
          forall j | 0 <= j < i + 1 ensures cs[j].cinema.id != id {
            if j > 0 { assert cs[j] == cs[1..][j - 1]; }
          }
        }
        r
      else r
  }

  function WindowSet(w: Option<InfoWindow>): set<nat> {
    if w.Some? then {w.value.handle} else {}
  }

  function Handles(ms: map<string, Marker>): set<nat> {
    set id | id in ms :: ms[id].handle
  }

  // ---------------------------------------------------------------------------
  // Invariant

  /** What holds of every marker in the registry. */
  predicate MarkerOk(s: MapState, id: string)
    requires id in s.markers
  {
    var m := s.markers[id];
    && s.ready
    && m.handle in s.attached && m.handle < s.nextHandle
    && m.cinema.cinema.id == id
    && id in Ids(s.props.cinemas)
  }

  /** A marker is drawn selected only for the effective selection. */
  predicate StyledOk(s: MapState, id: string)
    requires id in s.markers
  {
    s.markers[id].look.selected ==> Effective(s) == Some(id)
  }

  predicate DistinctHandles(ms: map<string, Marker>) {
    forall a, b :: a in ms && b in ms && a != b ==> ms[a].handle != ms[b].handle
  }

  predicate HandlesBelow(ms: map<string, Marker>, n: nat) {
    forall id :: id in ms ==> ms[id].handle < n
  }

  /** The invariant every event keeps: only the info window the ref holds can
      be open; every registered marker is on the map, belongs to a listed
      cinema and is drawn selected only if it is the effective selection; no two
      registry entries share a marker. */
  ghost predicate Inv(s: MapState) {
    && s.open <= WindowSet(s.infoWindow)
    && (forall id :: id in s.markers ==> MarkerOk(s, id))
    && (forall id :: id in s.markers ==> StyledOk(s, id))
    && DistinctHandles(s.markers)
  }

  /** At most one info window is open, and at most one marker is drawn selected. */
  lemma InvConsequences(s: MapState)
    requires Inv(s)
    ensures |s.open| <= 1
    ensures forall a, b :: (a in s.markers && b in s.markers && s.markers[a].look.selected
      && s.markers[b].look.selected) ==> a == b
    ensures s.markers != map[] ==> s.ready
    ensures HandlesBelow(s.markers, s.nextHandle)
  {
    if s.open != {} {
      var x :| x in s.open;
      assert s.open == {x};
    }
    forall id | id in s.markers ensures s.markers[id].handle < s.nextHandle {
      assert MarkerOk(s, id);
    }
    if s.markers != map[] {
      var id :| id in s.markers;
      assert MarkerOk(s, id);
    }
    forall a, b | a in s.markers && b in s.markers && s.markers[a].look.selected && s.markers[b].look.selected
      ensures a == b
    {
      assert StyledOk(s, a) && StyledOk(s, b);
    }
  }

  // ---------------------------------------------------------------------------
  // Restyle

  /** `updateMarkerIcon(id, selected)`: redraw the marker from the current
      cinema data; nothing happens without a marker or a listed cinema. */
  function UpdateIcon(s: MapState, id: string, selected: bool): MapState {
    if id in s.markers && FindView(s.props.cinemas, id).Some? then
      s.(markers := s.markers[id := s.markers[id].(look := LookOf(FindView(s.props.cinemas, id).value, selected))])
    else s
  }

  function Demote(cs: seq<CinemaView>, m: Marker, id: string): Marker {
    match FindView(cs, id)
    case None => m
    case Some(v) => m.(look := LookOf(v, false))
  }

  /** The restyle effect: every marker back to the normal image, then the
      effective selection, when truthy, to the selected one. */
  function Restyle(s: MapState): (r: MapState)
    ensures r == s.(markers := r.markers)
    ensures r.markers.Keys == s.markers.Keys
    ensures !s.ready ==> r == s
    ensures forall id :: id in r.markers ==>
      r.markers[id] == s.markers[id].(look := r.markers[id].look)
    ensures forall id :: id in s.markers && id !in Ids(s.props.cinemas) ==> r.markers[id] == s.markers[id]
    ensures s.ready ==> forall id :: id in s.markers && id in Ids(s.props.cinemas) ==>
      r.markers[id].look == LookOf(FindView(s.props.cinemas, id).value, Truthy(Effective(s)) && Effective(s).value == id)
  {
    if !s.ready then s
    else
      var demoted := s.(markers := map id | id in s.markers :: Demote(s.props.cinemas, s.markers[id], id));
      var eff := Effective(s);
      if Truthy(eff) then UpdateIcon(demoted, eff.value, true) else demoted
  }

  /** After a restyle of a state whose markers all belong to listed cinemas,
      exactly the effective selection is drawn selected, if it has a marker. */
  lemma RestyleSelects(s: MapState)
    requires s.ready
    requires forall id :: id in s.markers ==> id in Ids(s.props.cinemas)
    ensures forall id :: id in Restyle(s).markers ==>
      (Restyle(s).markers[id].look.selected <==> Truthy(Effective(s)) && Effective(s).value == id)
    ensures forall id :: id in Restyle(s).markers && !Restyle(s).markers[id].look.selected ==>
      StyleOf(Restyle(s).markers[id].look) == NORMAL
    ensures forall id :: id in Restyle(s).markers && Restyle(s).markers[id].look.selected ==>
      StyleOf(Restyle(s).markers[id].look) == SELECTED
  {
  }

  /** A restyle keeps the invariant; the props and the selection it reads are
      those of the state it is given. */
  lemma RestyleKeepsInv(s: MapState)
    requires s.open <= WindowSet(s.infoWindow)
    requires forall id :: id in s.markers ==> MarkerOk(s, id)
    requires DistinctHandles(s.markers)
    ensures Inv(Restyle(s))
  {
    var r := Restyle(s);
    if s.ready {
      forall id | id in r.markers ensures MarkerOk(r, id) && StyledOk(r, id) {
        assert MarkerOk(s, id);
      }
    }
  }

  /** A state update is followed by a render; its restyle effect runs only when
      the effective selection changed. */
  function AfterRender(before: MapState, after: MapState): MapState {
    if Effective(after) != Effective(before) then Restyle(after) else after
  }

  lemma AfterRenderKeepsInv(before: MapState, after: MapState)
    requires Inv(before)
    requires after.markers == before.markers && after.ready == before.ready
    requires after.props.cinemas == before.props.cinemas
    requires before.attached <= after.attached && before.nextHandle <= after.nextHandle
    requires after.open <= WindowSet(after.infoWindow)
    ensures Inv(AfterRender(before, after))
  {
    forall id | id in after.markers ensures MarkerOk(after, id) {
      assert MarkerOk(before, id);
    }
    if Effective(after) != Effective(before) {
      RestyleKeepsInv(after);
    } else {
      forall id | id in after.markers ensures StyledOk(after, id) {
        assert StyledOk(before, id);
      }
    }
  }

  // ---------------------------------------------------------------------------
  // Rebuild

  /** The handles from `lo` up to, not including, `hi`. */
  function Range(lo: nat, hi: nat): (r: set<nat>)
    ensures forall h :: h in r <==> lo <= h < hi
    decreases hi - lo
  {
    if lo >= hi then {} else {lo} + Range(lo + 1, hi)
  }

  /** One iteration of the rebuild loop: a new marker with the normal image,
      registered under the cinema's id (a later duplicate id overwrites). */
  function Place(s: MapState, v: CinemaView): MapState {
    s.(markers := s.markers[v.cinema.id := Marker(s.nextHandle, v, LookOf(v, false), s.props.hasMarkerClick)],
       attached := s.attached + {s.nextHandle},
       nextHandle := s.nextHandle + 1)
  }

  /** The rebuild loop: one new marker per cinema, in list order. */
  function PlaceAll(s: MapState, cs: seq<CinemaView>): (r: MapState)
    ensures r == s.(markers := r.markers, attached := r.attached, nextHandle := r.nextHandle)
    ensures r.nextHandle == s.nextHandle + |cs|
    decreases |cs|
  {
    if |cs| == 0 then s else PlaceAll(Place(s, cs[0]), cs[1..])
  }

  lemma IdsCons(cs: seq<CinemaView>)
    requires |cs| > 0
    ensures Ids(cs) == {cs[0].cinema.id} + Ids(cs[1..])
  {
    assert cs == [cs[0]] + cs[1..];
  }

  /** Every new marker goes on the map, with a new handle. */
  lemma {:induction false} PlaceAllAttached(s: MapState, cs: seq<CinemaView>)
    ensures PlaceAll(s, cs).attached == s.attached + Range(s.nextHandle, s.nextHandle + |cs|)
    decreases |cs|
  {
    if |cs| > 0 {
      PlaceAllAttached(Place(s, cs[0]), cs[1..]);
    }
  }

  /** The registry gains exactly the listed ids; other entries are untouched. */
  lemma {:induction false} PlaceAllKeys(s: MapState, cs: seq<CinemaView>)
    ensures PlaceAll(s, cs).markers.Keys == s.markers.Keys + Ids(cs)
    ensures forall id :: id in s.markers && id !in Ids(cs) ==> PlaceAll(s, cs).markers[id] == s.markers[id]
    decreases |cs|
  {
    if |cs| == 0 {
      assert Ids(cs) == {};
    } else {
      PlaceAllKeys(Place(s, cs[0]), cs[1..]);
      IdsCons(cs);
    }
  }

  /** A marker placed by the loop for `cs`, starting from `s`. */
  predicate Placed(s: MapState, cs: seq<CinemaView>, m: Marker, id: string) {
    && m.cinema in cs && m.cinema.cinema.id == id
    && m.look == LookOf(m.cinema, false)
    && m.notifies == s.props.hasMarkerClick
    && s.nextHandle <= m.handle < s.nextHandle + |cs|
  }

  /** Each listed cinema's entry is a new marker in the normal image that holds
      that cinema. */
  lemma {:induction false} PlaceAllMarkers(s: MapState, cs: seq<CinemaView>)
    ensures forall id :: id in Ids(cs) ==> id in PlaceAll(s, cs).markers && Placed(s, cs, PlaceAll(s, cs).markers[id], id)
    decreases |cs|
  {
    if |cs| > 0 {
      var s1 := Place(s, cs[0]);
      var r := PlaceAll(s, cs);
      PlaceAllMarkers(s1, cs[1..]);
      PlaceAllKeys(s1, cs[1..]);
      IdsCons(cs);
      forall id | id in Ids(cs) ensures id in r.markers && Placed(s, cs, r.markers[id], id) {
        if id in Ids(cs[1..]) {
          assert Placed(s1, cs[1..], r.markers[id], id);
        } else {
          assert r.markers[id] == s1.markers[id];
        }
      }
    }
  }

  /** The loop never gives two registry entries the same marker. */
  lemma {:induction false} PlaceAllDistinct(s: MapState, cs: seq<CinemaView>)
    requires DistinctHandles(s.markers) && HandlesBelow(s.markers, s.nextHandle)
    ensures DistinctHandles(PlaceAll(s, cs).markers) && HandlesBelow(PlaceAll(s, cs).markers, PlaceAll(s, cs).nextHandle)
    decreases |cs|
  {
    if |cs| > 0 {
      var s1 := Place(s, cs[0]);
      assert DistinctHandles(s1.markers);
      PlaceAllDistinct(s1, cs[1..]);
    }
  }

  function Lats(cs: seq<CinemaView>): seq<int> {
    seq(|cs|, i requires 0 <= i < |cs| => cs[i].cinema.latitude)
  }

  function Lngs(cs: seq<CinemaView>): seq<int> {
    seq(|cs|, i requires 0 <= i < |cs| => cs[i].cinema.longitude)
  }

  /** `Math.min(...xs)`. */
  function Lo(xs: seq<int>): (r: int)
    requires |xs| > 0
    ensures r in xs && forall i :: 0 <= i < |xs| ==> r <= xs[i]
  {
    if |xs| == 1 then xs[0]
    else
      var rest := Lo(xs[1..]);
      assert forall i :: 1 <= i < |xs| ==> xs[i] == xs[1..][i - 1];
      if xs[0] <= rest then xs[0] else rest
  }

  /** `Math.max(...xs)`. */
  function Hi(xs: seq<int>): (r: int)
    requires |xs| > 0
    ensures r in xs && forall i :: 0 <= i < |xs| ==> xs[i] <= r
  {
    if |xs| == 1 then xs[0]
    else
      var rest := Hi(xs[1..]);
      assert forall i :: 1 <= i < |xs| ==> xs[i] == xs[1..][i - 1];
      if xs[0] >= rest then xs[0] else rest
  }

  function BoundsOf(cs: seq<CinemaView>): Bounds
    requires |cs| > 0
  {
    Bounds(Lo(Lats(cs)), Lo(Lngs(cs)), Hi(Lats(cs)), Hi(Lngs(cs)))
  }

  /** The fitted bounds are the tightest box around every cinema. */
  lemma BoundsContainAll(cs: seq<CinemaView>)
    requires |cs| > 0
    ensures forall i :: 0 <= i < |cs| ==>
      && BoundsOf(cs).south <= cs[i].cinema.latitude <= BoundsOf(cs).north
      && BoundsOf(cs).west <= cs[i].cinema.longitude <= BoundsOf(cs).east
    ensures exists i :: 0 <= i < |cs| && cs[i].cinema.latitude == BoundsOf(cs).south
    ensures exists i :: 0 <= i < |cs| && cs[i].cinema.latitude == BoundsOf(cs).north
    ensures exists i :: 0 <= i < |cs| && cs[i].cinema.longitude == BoundsOf(cs).west
    ensures exists i :: 0 <= i < |cs| && cs[i].cinema.longitude == BoundsOf(cs).east
  {
    var b := BoundsOf(cs);
    forall i | 0 <= i < |cs|
      ensures b.south <= cs[i].cinema.latitude <= b.north && b.west <= cs[i].cinema.longitude <= b.east
    {
      assert Lats(cs)[i] == cs[i].cinema.latitude && Lngs(cs)[i] == cs[i].cinema.longitude;
    }
    var i :| 0 <= i < |cs| && Lats(cs)[i] == b.south;
    var j :| 0 <= j < |cs| && Lats(cs)[j] == b.north;
    var k :| 0 <= k < |cs| && Lngs(cs)[k] == b.west;
    var l :| 0 <= l < |cs| && Lngs(cs)[l] == b.east;
  }

  /** The bounds fit at the end of a rebuild: only for two or more cinemas and
      no `center` prop. */
  function Fit(p: Props): seq<Effect> {
    if |p.cinemas| > 0 && p.center.None? && |p.cinemas| > 1 then
      [FitBounds(BoundsOf(p.cinemas), FIT_PADDING)]
    else []
  }

  /** The marker effect: remove every marker, close the info window, place one
      marker per cinema, then fit the bounds. */
  function Rebuild(s: MapState): (r: Step)
    ensures !s.ready ==> r == Step(s, [])
    ensures r.state == s.(markers := r.state.markers, attached := r.state.attached, open := r.state.open,
                          nextHandle := r.state.nextHandle)
  {
    if !s.ready then Step(s, [])
    else
      var cleared := s.(markers := map[], attached := s.attached - Handles(s.markers),
                        open := s.open - WindowSet(s.infoWindow));
      var closing := if s.infoWindow.Some? then [Close(s.infoWindow.value.handle)] else [];
      Step(PlaceAll(cleared, s.props.cinemas), closing + Fit(s.props))
  }

  /** After a rebuild on a ready map: the registry holds exactly the listed
      cinemas, every one with a new marker in the normal image, the earlier
      markers are off the map, and no info window is open. */
  lemma RebuildResult(s: MapState)
    requires s.ready
    requires s.open <= WindowSet(s.infoWindow)
    requires HandlesBelow(s.markers, s.nextHandle)
    ensures Rebuild(s).state.markers.Keys == Ids(s.props.cinemas)
    ensures Rebuild(s).state.open == {}
    ensures forall id :: id in Rebuild(s).state.markers ==>
      && !Rebuild(s).state.markers[id].look.selected
      && StyleOf(Rebuild(s).state.markers[id].look) == NORMAL
      && Placed(s, s.props.cinemas, Rebuild(s).state.markers[id], id)
      && Rebuild(s).state.markers[id].handle in Rebuild(s).state.attached
    ensures forall id :: id in s.markers ==> s.markers[id].handle !in Rebuild(s).state.attached
    ensures DistinctHandles(Rebuild(s).state.markers)
  {
    var cleared := s.(markers := map[], attached := s.attached - Handles(s.markers),
                      open := s.open - WindowSet(s.infoWindow));
    var cs := s.props.cinemas;
    PlaceAllKeys(cleared, cs);
    PlaceAllMarkers(cleared, cs);
    PlaceAllAttached(cleared, cs);
    PlaceAllDistinct(cleared, cs);
    forall id | id in s.markers ensures s.markers[id].handle !in Rebuild(s).state.attached {
      assert s.markers[id].handle in Handles(s.markers);
    }
  }

  /** The calls a rebuild makes: a close of the info-window ref when one is
      held, then a fit of the bounds exactly for two or more cinemas and no
      `center` prop, with the tightest box and padding 80/50/50/50. */
  lemma RebuildEffects(s: MapState)
    requires s.ready
    ensures var e := Rebuild(s).effects;
      && (s.infoWindow.Some? ==> e[0] == Close(s.infoWindow.value.handle))
      && ((exists k :: 0 <= k < |e| && e[k].FitBounds?) <==> |s.props.cinemas| > 1 && s.props.center.None?)
      && (forall k :: 0 <= k < |e| && e[k].FitBounds? ==>
            e[k] == FitBounds(BoundsOf(s.props.cinemas), FIT_PADDING))
      && (forall k :: 0 <= k < |e| ==> e[k].Close? || e[k].FitBounds?)
  {
    var e := Rebuild(s).effects;
    if |s.props.cinemas| > 1 && s.props.center.None? {
      assert e[|e| - 1].FitBounds?;
    }
  }

  lemma RebuildKeepsInv(s: MapState)
    requires s.open <= WindowSet(s.infoWindow)
    requires HandlesBelow(s.markers, s.nextHandle)
    requires s.ready || s.markers == map[]
    ensures Inv(Rebuild(s).state)
  {
    if s.ready {
      var r := Rebuild(s).state;
      RebuildResult(s);
      assert r.nextHandle == s.nextHandle + |s.props.cinemas|;
      forall id | id in r.markers ensures MarkerOk(r, id) && StyledOk(r, id) {
        assert Placed(s, s.props.cinemas, r.markers[id], id);
      }
    }
  }

  // ---------------------------------------------------------------------------
  // Panning and info windows

  /** `panTo(lat, lng, zoom?)`: nothing without a map; otherwise pan, and queue
      the zoom only for a truthy zoom. */
  function Pan(s: MapState, target: LatLng, zoom: Option<int>): (r: Step)
    ensures !s.ready ==> r == Step(s, [])
    ensures s.ready ==> r.effects == [PanTo(target)] && r.state.center == target
    ensures s.ready && zoom.Some? && zoom.value != 0 ==> r.state.timers == s.timers + [ApplyZoom(zoom.value)]
    ensures !(zoom.Some? && zoom.value != 0) ==> r.state.timers == s.timers
    ensures r.state == s.(center := r.state.center, timers := r.state.timers)
  {
    if !s.ready then Step(s, [])
    else
      var queued := if zoom.Some? && zoom.value != 0 then [ApplyZoom(zoom.value)] else [];
      Step(s.(center := target, timers := s.timers + queued), [PanTo(target)])
  }

  /** Close the info window the ref holds, if any, then open a new one for `v`
      at the given marker and keep it in the ref. */
  function OpenWindow(s: MapState, v: CinemaView, anchor: nat): (r: Step)
    ensures r.state == s.(infoWindow := r.state.infoWindow, open := r.state.open, nextHandle := s.nextHandle + 1)
    ensures r.state.infoWindow == Some(InfoWindow(s.nextHandle, Content(v), anchor))
    ensures r.state.open == (s.open - WindowSet(s.infoWindow)) + {s.nextHandle}
    ensures s.infoWindow.Some? ==> r.effects == [Close(s.infoWindow.value.handle), Open(s.nextHandle, v.cinema.id, anchor)]
    ensures s.infoWindow.None? ==> r.effects == [Open(s.nextHandle, v.cinema.id, anchor)]
  {
    var closing := if s.infoWindow.Some? then [Close(s.infoWindow.value.handle)] else [];
    var w := InfoWindow(s.nextHandle, Content(v), anchor);
    Step(s.(infoWindow := Some(w), open := (s.open - WindowSet(s.infoWindow)) + {w.handle},
            nextHandle := s.nextHandle + 1),
         closing + [Open(w.handle, v.cinema.id, anchor)])
  }

  /** Opening an info window leaves exactly that one open. */
  lemma OpenWindowAlone(s: MapState, v: CinemaView, anchor: nat)
    requires s.open <= WindowSet(s.infoWindow)
    ensures OpenWindow(s, v, anchor).state.open == {s.nextHandle}
    ensures OpenWindow(s, v, anchor).state.open <= WindowSet(OpenWindow(s, v, anchor).state.infoWindow)
  {
  }

  /** A click on the marker registered under `id`: pan there without zoom,
      select the cinema the handler captured, replace the info window, call
      `onMarkerClick` when the handler was built with one, then render. */
  function Click(s: MapState, id: string): Step {
    if id !in s.markers then Step(s, [])
    else
      var m := s.markers[id];
      var v := m.cinema;
      var pan := Pan(s, Position(v.cinema), None);
      var selected := pan.state.(selectedId := Some(v.cinema.id));
      var shown := OpenWindow(selected, v, m.handle);
      var notify := if m.notifies then [Notify(v.cinema.id)] else [];
      Step(AfterRender(s, shown.state), pan.effects + [Select(Some(v.cinema.id))] + shown.effects + notify)
  }

  /** The order of a click's calls: pan, select, close the previous info window,
      open the new one, then notify the parent. No zoom is queued. */
  lemma ClickOrder(s: MapState, id: string)
    requires Inv(s) && id in s.markers
    ensures var e := Click(s, id).effects;
      var p := Position(s.markers[id].cinema.cinema);
      var h := s.nextHandle;
      && e[0] == PanTo(p)
      && e[1] == Select(Some(id))
      && (s.infoWindow.Some? ==> e[2] == Close(s.infoWindow.value.handle) && e[3] == Open(h, id, s.markers[id].handle))
      && (s.infoWindow.None? ==> e[2] == Open(h, id, s.markers[id].handle))
      && (s.markers[id].notifies <==> e[|e| - 1] == Notify(id))
      && |e| == 3 + |WindowSet(s.infoWindow)| + (if s.markers[id].notifies then 1 else 0)
    ensures Click(s, id).state.timers == s.timers
    ensures Click(s, id).state.selectedId == Some(id)
    ensures Click(s, id).state.open == {s.nextHandle}
    ensures Click(s, id).state.infoWindow.value.content == Content(s.markers[id].cinema)
  {
    assert MarkerOk(s, id);
    assert s.infoWindow.Some? ==> |WindowSet(s.infoWindow)| == 1;
  }

  /** A click on a marker that is not registered does nothing. */
  lemma ClickUnknown(s: MapState, id: string)
    requires id !in s.markers
    ensures Click(s, id) == Step(s, [])
  {
  }

  /** Without a `selectedCinemaId` prop a click on a marker that is not the
      current selection highlights it and no other; a click on the current
      selection restyles nothing; with the prop, the highlight does not move. */
  lemma ClickHighlights(s: MapState, id: string)
    requires Inv(s) && id in s.markers && id != ""
    ensures s.props.selectedCinemaId.Uncontrolled? && s.selectedId != Some(id) ==>
      forall k :: k in Click(s, id).state.markers ==> (Click(s, id).state.markers[k].look.selected <==> k == id)
    ensures s.props.selectedCinemaId.Uncontrolled? && s.selectedId == Some(id) ==>
      Click(s, id).state.markers == s.markers
    ensures s.props.selectedCinemaId.Controlled? ==>
      Click(s, id).state.markers == s.markers && Effective(Click(s, id).state) == Effective(s)
  {
    assert MarkerOk(s, id);
    var r := Click(s, id).state;
    if s.props.selectedCinemaId.Uncontrolled? && s.selectedId != Some(id) {
      var shown := OpenWindow(Pan(s, Position(s.markers[id].cinema.cinema), None).state.(selectedId := Some(id)),
                              s.markers[id].cinema, s.markers[id].handle).state;
      assert forall k :: k in shown.markers ==> MarkerOk(s, k);
      RestyleSelects(shown);
    }
  }

  /** `panToCinema(cinema)` through the component's handle: pan with zoom 17,
      select the cinema whether or not a map exists, queue the delayed opening
      of its info window, then render. */
  function PanToCinema(s: MapState, c: Cinema): (r: Step)
    ensures r.state.selectedId == Some(c.id)
    ensures r.state.timers == s.timers + (if s.ready then [ApplyZoom(CINEMA_ZOOM)] else [])
      + [OpenAfterPan(c.id, s.props.cinemas)]
    ensures r.effects == (if s.ready then [PanTo(Position(c))] else []) + [Select(Some(c.id))]
  {
    var pan := Pan(s, Position(c), Some(CINEMA_ZOOM));
    var selected := pan.state.(selectedId := Some(c.id), timers := pan.state.timers + [OpenAfterPan(c.id, s.props.cinemas)]);
    Step(AfterRender(s, selected), pan.effects + [Select(Some(c.id))])
  }

  /** The "my location" button: pan to the default center, keeping the zoom. */
  function MyLocation(s: MapState): (r: Step)
    ensures r.state.timers == s.timers && r.state.markers == s.markers
    ensures r.effects == (if s.ready then [PanTo(DEFAULT_CENTER)] else [])
  {
    Pan(s, DEFAULT_CENTER, None)
  }

  /** Fire the `k`th pending timer. The zoom applies only to an existing map;
      the delayed opening happens only when the marker is registered now, the
      map exists and the captured cinema list has the cinema. */
  function FireTimer(s: MapState, k: nat): (r: Step)
    ensures k >= |s.timers| ==> r == Step(s, [])
    ensures k < |s.timers| ==> r.state.timers == s.timers[..k] + s.timers[k + 1..]
    ensures k < |s.timers| && s.timers[k].ApplyZoom? ==>
      r.state == s.(timers := r.state.timers, zoom := if s.ready then s.timers[k].zoom else s.zoom)
    ensures k < |s.timers| && s.timers[k].OpenAfterPan? ==>
      var t := s.timers[k];
      (r.effects != [] <==> t.cinemaId in s.markers && s.ready && t.cinemaId in Ids(t.cinemas))
  {
    if k >= |s.timers| then Step(s, [])
    else
      var s0 := s.(timers := s.timers[..k] + s.timers[k + 1..]);
      match s.timers[k]
      case ApplyZoom(z) => if s0.ready then Step(s0.(zoom := z), [SetZoom(z)]) else Step(s0, [])
      case OpenAfterPan(id, captured) =>
        var found := FindView(captured, id);
        if id in s0.markers && s0.ready && found.Some? then OpenWindow(s0, found.value, s0.markers[id].handle)
        else Step(s0, [])
  }

  /** A delayed opening that happens shows the cinema as captured when
      `panToCinema` was called, and leaves only its window open. */
  lemma FireOpenShowsCaptured(s: MapState, k: nat)
    requires Inv(s) && k < |s.timers| && s.timers[k].OpenAfterPan?
    requires FireTimer(s, k).effects != []
    ensures var t := s.timers[k];
      && FireTimer(s, k).state.infoWindow.value.content == Content(FindView(t.cinemas, t.cinemaId).value)
      && FireTimer(s, k).state.open == {s.nextHandle}
      && FireTimer(s, k).state.selectedId == s.selectedId
  {
  }

  /** A click on the map background: with an info-window ref, close it and
      clear `selectedId`; otherwise nothing. */
  function MapClick(s: MapState): (r: Step)
    ensures !(s.ready && s.infoWindow.Some?) ==> r == Step(s, [])
    ensures s.ready && s.infoWindow.Some? ==>
      && r.state.selectedId.None?
      && r.state.open == s.open - {s.infoWindow.value.handle}
      && r.effects == [Close(s.infoWindow.value.handle), Select(None)]
  {
    if !s.ready || s.infoWindow.None? then Step(s, [])
    else
      var h := s.infoWindow.value.handle;
      Step(AfterRender(s, s.(open := s.open - {h}, selectedId := None)), [Close(h), Select(None)])
  }

  /** After a background click no info window is open. */
  lemma MapClickCloses(s: MapState)
    requires Inv(s)
    ensures s.ready || s.infoWindow.None? ==> MapClick(s).state.open == {}
    ensures MapClick(s).state.infoWindow == s.infoWindow
  {
    if s.ready && s.infoWindow.Some? {
      var h := s.infoWindow.value.handle;
      assert s.open - {h} == {};
    }
  }

  // ---------------------------------------------------------------------------
  // Prop changes and loading

  /** A new `center` prop: the center effect moves the map unless the new
      center equals the one captured when the map was created; the marker
      effect, which depends on `center`, then rebuilds. */
  function CenterChanged(s: MapState, center: Option<LatLng>): (r: Step)
    ensures r.state.props == s.props.(center := center)
  {
    var s1 := s.(props := s.props.(center := center));
    var target := center.GetOr(DEFAULT_CENTER);
    var moved := if s.ready && target != s.initialCenter then Step(s1.(center := target), [SetCenter(target)])
                 else Step(s1, []);
    var rebuilt := Rebuild(moved.state);
    Step(rebuilt.state, moved.effects + rebuilt.effects)
  }

  /** The map is re-centred exactly when it exists and the requested center
      differs from the initial one; the viewport then shows that center. */
  lemma CenterGuard(s: MapState, center: Option<LatLng>)
    ensures var target := center.GetOr(DEFAULT_CENTER);
      var r := CenterChanged(s, center);
      && ((exists k :: 0 <= k < |r.effects| && r.effects[k].SetCenter?) <==> s.ready && target != s.initialCenter)
      && (s.ready && target != s.initialCenter ==> r.effects[0] == SetCenter(target) && r.state.center == target)
      && (!(s.ready && target != s.initialCenter) ==> r.state.center == s.center)
  {
    var target := center.GetOr(DEFAULT_CENTER);
    var s1 := s.(props := s.props.(center := center));
    var moved := if s.ready && target != s.initialCenter then s1.(center := target) else s1;
    var r := CenterChanged(s, center);
    if moved.ready {
      RebuildEffects(moved);
    }
    if s.ready && target != s.initialCenter {
      assert r.effects[0].SetCenter?;
    } else {
      assert r.effects == Rebuild(moved).effects;
    }
  }

  /** A new `cinemas` list: the restyle effect runs first (its callback depends
      on the list) on the old markers, then the marker effect rebuilds. */
  function CinemasChanged(s: MapState, cs: seq<CinemaView>): (r: Step)
    ensures r.state.props == s.props.(cinemas := cs)
  {
    Rebuild(Restyle(s.(props := s.props.(cinemas := cs))))
  }

  /** After new data no marker is drawn selected, even when a selection is
      still in effect: the restyle ran before the rebuild replaced the markers. */
  lemma CinemasChangedDropsHighlight(s: MapState, cs: seq<CinemaView>)
    requires Inv(s) && s.ready
    ensures CinemasChanged(s, cs).state.markers.Keys == Ids(cs)
    ensures Effective(CinemasChanged(s, cs).state) == Effective(s)
    ensures forall id :: id in CinemasChanged(s, cs).state.markers ==>
      !CinemasChanged(s, cs).state.markers[id].look.selected
  {
    var s1 := Restyle(s.(props := s.props.(cinemas := cs)));
    RebuildResult(s1);
  }

  /** A new `selectedCinemaId` prop; a render follows. */
  function SelectionChanged(s: MapState, sel: Selection): (r: Step)
    ensures r.state.props == s.props.(selectedCinemaId := sel)
    ensures r.effects == []
  {
    Step(AfterRender(s, s.(props := s.props.(selectedCinemaId := sel))), [])
  }

  /** A controlled selection that changes is what the map highlights. Setting
      the prop to the selection already in effect restyles nothing. */
  lemma SelectionChangedHighlights(s: MapState, id: Option<string>)
    requires Inv(s) && s.ready
    ensures Effective(SelectionChanged(s, Controlled(id)).state) == id
    ensures id != Effective(s) ==>
      forall k :: k in SelectionChanged(s, Controlled(id)).state.markers ==>
        (SelectionChanged(s, Controlled(id)).state.markers[k].look.selected <==> Truthy(id) && id.value == k)
    ensures id == Effective(s) ==> SelectionChanged(s, Controlled(id)).state.markers == s.markers
  {
    var s1 := s.(props := s.props.(selectedCinemaId := Controlled(id)));
    assert forall k :: k in s1.markers ==> MarkerOk(s, k);
    RestyleSelects(s1);
  }

  /** A new `onMarkerClick` prop: the marker effect depends on it and rebuilds. */
  function MarkerClickChanged(s: MapState, has: bool): (r: Step)
    ensures r.state.props == s.props.(hasMarkerClick := has)
    ensures !s.ready ==> r == Step(s.(props := r.state.props), [])
  {
    Rebuild(s.(props := s.props.(hasMarkerClick := has)))
  }

  /** After a new `onMarkerClick` prop every registered marker's handler is
      built with it: a handler calls the parent exactly when the prop is set. */
  lemma MarkerClickRewires(s: MapState, has: bool)
    requires s.ready && s.open <= WindowSet(s.infoWindow)
    requires HandlesBelow(s.markers, s.nextHandle)
    ensures var r := MarkerClickChanged(s, has).state;
      && r.markers.Keys == Ids(s.props.cinemas)
      && forall id :: id in r.markers ==> r.markers[id].notifies == has
  {
    var s1 := s.(props := s.props.(hasMarkerClick := has));
    RebuildResult(s1);
    forall id | id in Rebuild(s1).state.markers ensures Rebuild(s1).state.markers[id].notifies == has {
      assert Placed(s1, s1.props.cinemas, Rebuild(s1).state.markers[id], id);
    }
  }

  /** The library finished loading: the init effect creates the map at
      `center || DEFAULT_CENTER`, zoom 15, and records that center; then the
      restyle and marker effects run, in that order. */
  function LibraryReady(s: MapState): (r: Step)
    ensures s.ready ==> r == Step(s, [])
    ensures !s.ready ==> r.state.ready && r.state.zoom == INITIAL_ZOOM
    ensures !s.ready ==> r.state.initialCenter == s.props.center.GetOr(DEFAULT_CENTER)
    ensures !s.ready ==> r.state.center == s.props.center.GetOr(DEFAULT_CENTER)
  {
    if s.ready then Step(s, [])
    else
      var c := s.props.center.GetOr(DEFAULT_CENTER);
      Rebuild(Restyle(s.(ready := true, initialCenter := c, center := c, zoom := INITIAL_ZOOM)))
  }

  // ---------------------------------------------------------------------------
  // Events

  datatype Event =
    | Ready
    | NewCinemas(cinemas: seq<CinemaView>)
    | NewCenter(center: Option<LatLng>)
    | NewSelection(selection: Selection)
    | NewMarkerClick(has: bool)
    | MarkerClicked(id: string)
    | MapClicked
    | MyLocationClicked
    | PanToCinemaCalled(cinema: Cinema)
    | TimerFired(index: nat)

  function Next(s: MapState, e: Event): Step {
    match e
    case Ready => LibraryReady(s)
    case NewCinemas(cs) => CinemasChanged(s, cs)
    case NewCenter(c) => CenterChanged(s, c)
    case NewSelection(sel) => SelectionChanged(s, sel)
    case NewMarkerClick(has) => MarkerClickChanged(s, has)
    case MarkerClicked(id) => Click(s, id)
    case MapClicked => MapClick(s)
    case MyLocationClicked => MyLocation(s)
    case PanToCinemaCalled(c) => PanToCinema(s, c)
    case TimerFired(k) => FireTimer(s, k)
  }

  /** Every event keeps the invariant: at most one info window open, only the
      effective selection drawn selected, and the registry consistent with the
      map and the cinema list. */
  lemma NextKeepsInv(s: MapState, e: Event)
    requires Inv(s)
    ensures Inv(Next(s, e).state)
  {
    match e
    case Ready =>
      if !s.ready {
        var s1 := s.(ready := true, initialCenter := s.props.center.GetOr(DEFAULT_CENTER),
                     center := s.props.center.GetOr(DEFAULT_CENTER), zoom := INITIAL_ZOOM);
        InvConsequences(s);
        assert s1.markers == map[];
        RebuildKeepsInv(Restyle(s1));
      }
    case NewCinemas(cs) =>
      var s1 := s.(props := s.props.(cinemas := cs));
      InvConsequences(s);
      if s.ready {
        RebuildKeepsInv(Restyle(s1));
      } else {
        assert s1.markers == map[];
      }
    case NewCenter(c) =>
      var s1 := s.(props := s.props.(center := c));
      var target := c.GetOr(DEFAULT_CENTER);
      var moved := if s.ready && target != s.initialCenter then s1.(center := target) else s1;
      InvConsequences(s);
      RebuildKeepsInv(moved);
    case NewSelection(sel) =>
      AfterRenderKeepsInv(s, s.(props := s.props.(selectedCinemaId := sel)));
    case NewMarkerClick(has) =>
      var s1 := s.(props := s.props.(hasMarkerClick := has));
      InvConsequences(s);
      RebuildKeepsInv(s1);
    case MarkerClicked(id) =>
      if id in s.markers {
        var m := s.markers[id];
        var pan := Pan(s, Position(m.cinema.cinema), None);
        var selected := pan.state.(selectedId := Some(m.cinema.cinema.id));
        OpenWindowAlone(selected, m.cinema, m.handle);
        AfterRenderKeepsInv(s, OpenWindow(selected, m.cinema, m.handle).state);
      }
    case MapClicked =>
      if s.ready && s.infoWindow.Some? {
        var h := s.infoWindow.value.handle;
        AfterRenderKeepsInv(s, s.(open := s.open - {h}, selectedId := None));
      }
    case MyLocationClicked =>
      var r := MyLocation(s).state;
      forall id | id in r.markers ensures MarkerOk(r, id) && StyledOk(r, id) {
        assert MarkerOk(s, id) && StyledOk(s, id);
      }
    case PanToCinemaCalled(c) =>
      var pan := Pan(s, Position(c), Some(CINEMA_ZOOM));
      var selected := pan.state.(selectedId := Some(c.id), timers := pan.state.timers + [OpenAfterPan(c.id, s.props.cinemas)]);
      AfterRenderKeepsInv(s, selected);
    case TimerFired(k) =>
      var r := FireTimer(s, k).state;
      if k < |s.timers| {
        var s0 := s.(timers := s.timers[..k] + s.timers[k + 1..]);
        forall id | id in s0.markers ensures MarkerOk(s0, id) && StyledOk(s0, id) {
          assert MarkerOk(s, id) && StyledOk(s, id);
        }
        match s.timers[k]
        case ApplyZoom(z) =>
          forall id | id in r.markers ensures MarkerOk(r, id) && StyledOk(r, id) {
            assert MarkerOk(s0, id) && StyledOk(s0, id);
          }
        case OpenAfterPan(cid, captured) =>
          var found := FindView(captured, cid);
          if cid in s0.markers && s0.ready && found.Some? {
            OpenWindowAlone(s0, found.value, s0.markers[cid].handle);
            forall id | id in r.markers ensures MarkerOk(r, id) && StyledOk(r, id) {
              assert MarkerOk(s0, id) && StyledOk(s0, id);
            }
          }
      }
  }
}

=== FILE: map_style.dfy ===
/** How the map draws a cinema: the marker's colour, numeral, size, anchor and
    stacking order, and the structure of the info window. The SVG and HTML
    text themselves are left out; only what they are built from is kept. */
module MapStyle {
  import opened Wrappers
  import opened Schema
  import opened Sorting
  import opened Constants
  import opened CinemaActions

  /** Marker colour per brand. */
  const BRAND_COLORS: map<string, string> := map[
    "CGV" := "#E74C3C",
    "메가박스" := "#9B59B6",
    "롯데시네마" := "#3498DB",
    "독립/예술영화관" := "#27AE60",
    "기타" := "#607D8B"]

  /** The brands with a colour are exactly the brands a cinema may carry. */
  lemma BrandColorsCoverBrands()
    ensures forall b :: b in BRAND_COLORS <==> b in CINEMA_BRANDS
    ensures forall b :: b in BRAND_COLORS ==> BRAND_COLORS[b] != ""
  {
    assert BRAND_COLORS.Keys == {"CGV", "메가박스", "롯데시네마", "독립/예술영화관", "기타"};
    forall b ensures b in BRAND_COLORS <==> b in CINEMA_BRANDS {
      assert b in CINEMA_BRANDS <==> (b == CINEMA_BRANDS[0] || b == CINEMA_BRANDS[1]
        || b == CINEMA_BRANDS[2] || b == CINEMA_BRANDS[3] || b == CINEMA_BRANDS[4]);
    }
  }

  /** The colour of the "other" brand, used for a missing or unknown brand. */
  const OTHER_COLOR: string := "#607D8B"

  /** `brand ? (BRAND_COLORS[brand] || BRAND_COLORS["기타"]) : BRAND_COLORS["기타"]`;
      every table entry is a non-empty string, so a found entry is kept. */
  function BrandColor(brand: Option<string>): (r: string)
    ensures Truthy(brand) && brand.value in BRAND_COLORS ==> r == BRAND_COLORS[brand.value]
    ensures !(Truthy(brand) && brand.value in BRAND_COLORS) ==> r == BRAND_COLORS["기타"]
    ensures r in BRAND_COLORS.Values
  {
    assert BRAND_COLORS["기타"] == OTHER_COLOR;
    if Truthy(brand) && brand.value in BRAND_COLORS then BRAND_COLORS[brand.value] else OTHER_COLOR
  }

  /** Size, anchor and stacking order of a marker image. */
  datatype Style = Style(width: int, height: int, anchorX: int, anchorY: int, zIndex: int)

  const NORMAL: Style := Style(36, 45, 18, 45, 100)
  const SELECTED: Style := Style(48, 60, 24, 60, 200)

  /** What a marker image is drawn from: colour, numeral and whether it is the
      selected variant. */
  datatype Look = Look(color: string, numeral: int, selected: bool)

  function StyleOf(l: Look): Style {
    if l.selected then SELECTED else NORMAL
  }

  /** The marker image of a cinema. The numeral is `watchCount`, which the
      server always fills in, so the `?? watches.length ?? 0` and `|| 0`
      fallbacks never apply. */
  function LookOf(v: CinemaView, selected: bool): (r: Look)
    ensures r.color == BrandColor(v.cinema.brand) && r.numeral == v.watchCount
    ensures r.selected == selected
  {
    Look(BrandColor(v.cinema.brand), v.watchCount, selected)
  }

  /** Both variants pin the cinema at the tip: the anchor is the bottom centre,
      and the selected one is larger and drawn above the rest. */
  lemma StylesAnchorAtTip(l: Look)
    ensures StyleOf(l).anchorX * 2 == StyleOf(l).width && StyleOf(l).anchorY == StyleOf(l).height
    ensures SELECTED.width > NORMAL.width && SELECTED.height > NORMAL.height
    ensures SELECTED.zIndex > NORMAL.zIndex
  {
  }

  // ---------------------------------------------------------------------------
  // Info window

  /** One watch row: the poster or, for a falsy poster URL, a placeholder; the
      rating badge (the stored rating text, present whenever the rating is not
      null, since that text is never empty); the title and the date. */
  datatype InfoRow = InfoRow(
    poster: Option<string>,
    ratingBadge: Option<string>,
    movieTitle: string,
    watchedAt: int)

  datatype InfoContent = InfoContent(
    cinemaId: string,
    name: string,
    recordCount: nat,
    rows: seq<InfoRow>,
    more: Option<nat>)

  /** At most this many rows are listed. */
  const MAX_ROWS: nat := 4

  function Row(w: Watch): (r: InfoRow)
    ensures r.poster.Some? <==> Truthy(w.posterUrl)
    ensures r.poster.Some? ==> r.poster == w.posterUrl
    ensures r.ratingBadge.Some? <==> w.rating.Some?
    ensures r.ratingBadge.Some? ==> ParseRating(r.ratingBadge.value) == w.rating
  {
    var badge := if w.rating.Some? then Some(RatingText(w.rating.value)) else None;
    assert w.rating.Some? ==> ParseRating(badge.value) == w.rating by {
      if w.rating.Some? { RatingTextRoundTrip(w.rating.value); }
    }
    InfoRow(if Truthy(w.posterUrl) then w.posterUrl else None, badge, w.movieTitle, w.watchedAt)
  }

  /** `createInfoWindowContent(cinema)`: the header counts every watch, the list
      shows the first four in order, and a "+N" footer counts the rest. */
  function Content(v: CinemaView): (r: InfoContent)
    ensures r.cinemaId == v.cinema.id && r.name == v.cinema.name
    ensures r.recordCount == |v.watches|
    ensures |r.rows| == Min(|v.watches|, MAX_ROWS)
    ensures forall i :: 0 <= i < |r.rows| ==> r.rows[i] == Row(v.watches[i])
    ensures r.more.Some? <==> |v.watches| > MAX_ROWS
    ensures r.more.Some? ==> r.more.value + |r.rows| == |v.watches|
  {
    var shown := Take(v.watches, MAX_ROWS);
    var remaining := |v.watches| - MAX_ROWS;
    InfoContent(
      v.cinema.id, v.cinema.name, |v.watches|,
      seq(|shown|, i requires 0 <= i < |shown| => Row(shown[i])),
      if remaining > 0 then Some(remaining) else None)
  }

  /** Every watch is either listed or counted in the footer, never both. */
  lemma ContentAccountsForAll(v: CinemaView)
    ensures |Content(v).rows| + Content(v).more.GetOr(0) == |v.watches|
    ensures Content(v).more.Some? ==> |Content(v).rows| == MAX_ROWS
  {
  }
}

=== FILE: movie_search.dfy ===
/** The movie search endpoint: request guards, the upstream genre mapping and
    the reshaping of upstream results for the client. The upstream call itself
    is a parameter: either the decoded result list or a failure. */
module MovieSearch {
  import opened Wrappers
  import opened Sorting
  import opened Constants

  /** Upstream genre id to the application's genre. */
  const TMDB_GENRE_MAP: map<int, string> := map[
    28 := "액션", 12 := "액션", 16 := "애니메이션", 35 := "코미디",
    80 := "공포/스릴러", 99 := "기타", 18 := "드라마", 10751 := "기타",
    14 := "SF/판타지", 36 := "드라마", 27 := "공포/스릴러", 10402 := "기타",
    9648 := "공포/스릴러", 10749 := "로맨스", 878 := "SF/판타지", 10770 := "드라마",
    53 := "공포/스릴러", 10752 := "액션", 37 := "액션"]

  /** Every mapped genre is one of the application's genres, and none is empty. */
  lemma GenreMapTargets()
    ensures forall id :: id in TMDB_GENRE_MAP ==> TMDB_GENRE_MAP[id] in GENRES && TMDB_GENRE_MAP[id] != ""
  {
    forall id | id in TMDB_GENRE_MAP
      ensures TMDB_GENRE_MAP[id] in GENRES && TMDB_GENRE_MAP[id] != ""
    {
      var g := TMDB_GENRE_MAP[id];
      assert g == GENRES[0] || g == GENRES[1] || g == GENRES[2] || g == GENRES[3]
          || g == GENRES[4] || g == GENRES[5] || g == GENRES[6] || g == GENRES[7];
    }
  }

  /** `ids[i]` is the first id the table knows. */
  predicate FirstKnown(ids: seq<int>, i: int) {
    0 <= i < |ids| && ids[i] in TMDB_GENRE_MAP && forall j :: 0 <= j < i ==> ids[j] !in TMDB_GENRE_MAP
  }

  /** `mapGenre(genreIds)`: the genre of the first id the table knows. Every
      table entry is a non-empty string, so the source's truthiness test is a
      membership test. */
  function MapGenre(ids: seq<int>): (r: Option<string>)
    ensures r.None? <==> forall i :: 0 <= i < |ids| ==> ids[i] !in TMDB_GENRE_MAP
    ensures r.Some? ==> exists i :: FirstKnown(ids, i) && r.value == TMDB_GENRE_MAP[ids[i]]
  {
    if |ids| == 0 then None
    else if ids[0] in TMDB_GENRE_MAP then Some(TMDB_GENRE_MAP[ids[0]])
    else
      var r := MapGenre(ids[1..]);
      if r.Some? then
        var i :| FirstKnown(ids[1..], i) && r.value == TMDB_GENRE_MAP[ids[1..][i]];
        assert FirstKnown(ids, i + 1) by {
          forall j | 0 <= j < i + 1 ensures ids[j] !in TMDB_GENRE_MAP {
            if j > 0 { assert ids[j] == ids[1..][j - 1]; }
          }
        }
        r
      else
        assert forall i :: 1 <= i < |ids| ==> ids[i] == ids[1..][i - 1];
        r
  }

  /** The mapped genre, when there is one, is an application genre. */
  lemma MapGenreInGenres(ids: seq<int>)
    ensures MapGenre(ids).Some? ==> MapGenre(ids).value in GENRES
  {
    GenreMapTargets();
  }

  /** An earlier list of ids takes precedence over a later one. */
  lemma {:induction false} MapGenreAppend(a: seq<int>, b: seq<int>)
    ensures MapGenre(a + b) == if MapGenre(a).Some? then MapGenre(a) else MapGenre(b)
  {
    if |a| == 0 {
      assert a + b == b;
    } else {
      assert (a + b)[0] == a[0];
      assert (a + b)[1..] == a[1..] + b;
      MapGenreAppend(a[1..], b);
    }
  }

  // ---------------------------------------------------------------------------
  // Results

  /** An upstream result; the floating-point `voteAverage` is passed through untouched. */
  datatype UpstreamMovie = UpstreamMovie(
    id: int,
    title: string,
    originalTitle: string,
    posterPath: Option<string>,
    releaseDate: string,
    overview: string,
    voteAverage: real,
    genreIds: seq<int>)

  /** The shape sent to the client. */
  datatype MovieItem = MovieItem(
    id: int,
    title: string,
    originalTitle: string,
    posterUrl: Option<string>,
    releaseDate: string,
    year: Option<string>,
    overview: string,
    rating: real,
    genre: Option<string>)

  const POSTER_BASE: string := "https://image.tmdb.org/t/p/w500"

  /** `s.split("-")[0]`: the text before the first dash, or all of `s` without one. */
  function BeforeDash(s: string): (r: string)
    ensures r <= s && '-' !in r
    ensures |r| < |s| ==> s[|r|] == '-'
  {
    if |s| == 0 || s[0] == '-' then []
    else [s[0]] + BeforeDash(s[1..])
  }

  /** A poster path is turned into a full URL only when it is non-empty. */
  function PosterUrl(path: Option<string>): (r: Option<string>)
    ensures r.Some? <==> Truthy(path)
    ensures r.Some? ==> |r.value| > |POSTER_BASE| && r.value[|POSTER_BASE|..] == path.value
    ensures r.Some? ==> POSTER_BASE <= r.value
  {
    if Truthy(path) then Some(POSTER_BASE + path.value) else None
  }

  /** `release_date ? release_date.split("-")[0] : null`. */
  function Year(releaseDate: string): (r: Option<string>)
    ensures r.None? <==> releaseDate == ""
    ensures r.Some? ==> r.value <= releaseDate && '-' !in r.value
    ensures r.Some? && |r.value| < |releaseDate| ==> releaseDate[|r.value|] == '-'
  {
    if releaseDate != "" then Some(BeforeDash(releaseDate)) else None
  }

  function ToItem(m: UpstreamMovie): MovieItem {
    MovieItem(m.id, m.title, m.originalTitle, PosterUrl(m.posterPath), m.releaseDate,
              Year(m.releaseDate), m.overview, m.voteAverage, MapGenre(m.genreIds))
  }

  /** A date such as "2024-05-01" yields the part before its first dash. */
  lemma {:induction false} BeforeDashOfDate(y: string, rest: string)
    requires '-' !in y
    ensures BeforeDash(y + "-" + rest) == y
  {
    if |y| > 0 {
      assert (y + "-" + rest)[1..] == y[1..] + "-" + rest;
      BeforeDashOfDate(y[1..], rest);
    }
  }

  // ---------------------------------------------------------------------------
  // The endpoint

  datatype Body = Error(message: string) | Items(items: seq<MovieItem>)

  datatype Response = Response(status: int, body: Body)

  /** `GET /api/search/movie?query=…` with the server's API key and the outcome
      of the upstream call (`None` for a network error, a non-2xx status or an
      undecodable body, which all end in the same catch). */
  function Search(query: Option<string>, apiKey: Option<string>,
                  upstream: Option<seq<UpstreamMovie>>): (r: Response)
    ensures r.status == 400 <==> !Truthy(query)
    ensures r.status == 500 <==> Truthy(query) && (!Truthy(apiKey) || upstream.None?)
    ensures r.status == 200 <==> Truthy(query) && Truthy(apiKey) && upstream.Some?
    ensures r.status == 200 <==> r.body.Items?
    ensures !Truthy(query) ==> r == Response(400, Error("query parameter is required"))
    ensures Truthy(query) && !Truthy(apiKey) ==> r == Response(500, Error("TMDB API key not configured"))
    ensures r.body.Items? ==>
      && |r.body.items| == Min(|upstream.value|, 10)
      && forall i :: 0 <= i < |r.body.items| ==> r.body.items[i] == ToItem(upstream.value[i])
  {
    if !Truthy(query) then Response(400, Error("query parameter is required"))
    else if !Truthy(apiKey) then Response(500, Error("TMDB API key not configured"))
    else match upstream
      case None => Response(500, Error("Failed to search movies"))
      case Some(results) =>
        var top := Take(results, 10);
        Response(200, Items(seq(|top|, i requires 0 <= i < |top| => ToItem(top[i]))))
  }
}

=== FILE: ratings.dfy ===
/** The average rating of a cinema's watches, computed over integer tenths. */
module Ratings {
  import opened Wrappers
  import opened Schema

  /** The non-null ratings of `ws`, in order. */
  function RatingsOf(ws: seq<Watch>): (r: seq<Tenths>)
    ensures |r| <= |ws|
    ensures |r| == 0 <==> forall i :: 0 <= i < |ws| ==> ws[i].rating.None?
  {
    if |ws| == 0 then []
    else
      var rest := RatingsOf(ws[1..]);
      assert forall i :: 1 <= i < |ws| ==> ws[i] == ws[1..][i - 1];
      match ws[0].rating
      case Some(t) => [t] + rest
      case None => rest
  }

  function Sum(xs: seq<int>): int {
    if |xs| == 0 then 0 else xs[0] + Sum(xs[1..])
  }

  lemma {:induction false} SumWithin(xs: seq<int>, lo: int, hi: int)
    requires forall i :: 0 <= i < |xs| ==> lo <= xs[i] <= hi
    ensures |xs| * lo <= Sum(xs) <= |xs| * hi
  {
    if |xs| > 0 {
      SumWithin(xs[1..], lo, hi);
    }
  }

  /** `Math.round(sum / n)`: the integer nearest to the mean, halves rounded up. */
  function RoundedMean(sum: int, n: nat): (r: int)
    requires n > 0
    ensures n * (2 * r - 1) <= 2 * sum < n * (2 * r + 1)
  {
    var q := (2 * sum + n) / (2 * n);
    var m := (2 * sum + n) % (2 * n);
    assert 2 * sum + n == 2 * n * q + m && 0 <= m < 2 * n;
    q
  }

  /** Rounding the mean never leaves the range of the values averaged. */
  lemma RoundedMeanWithin(sum: int, n: nat, lo: int, hi: int)
    requires n > 0 && n * lo <= sum <= n * hi
    ensures lo <= RoundedMean(sum, n) <= hi
  {
    var r := RoundedMean(sum, n);
    if r < lo {
      MulMonotone(n, 2 * r + 1, 2 * lo);
    }
    if r > hi {
      MulMonotone(n, 2 * hi + 1, 2 * r - 1);
    }
  }

  lemma MulMonotone(n: nat, a: int, b: int)
    requires a <= b
    ensures n * a <= n * b
  {
  }

  /** The mean of the non-null ratings, in tenths, rounded half up; `None` when there is none. */
  function AverageRating(ws: seq<Watch>): (r: Option<Tenths>)
    ensures r.None? <==> forall i :: 0 <= i < |ws| ==> ws[i].rating.None?
  {
    var xs := RatingsOf(ws);
    if |xs| == 0 then None
    else
      SumWithin(xs, 0, 99);
      RoundedMeanWithin(Sum(xs), |xs|, 0, 99);
      Some(RoundedMean(Sum(xs), |xs|))
  }

  /** The average is the mean of the non-null ratings rounded half up:
      it is within one half of `Sum(xs) / |xs|`. */
  lemma AverageRatingRounds(ws: seq<Watch>)
    requires AverageRating(ws).Some?
    ensures var xs := RatingsOf(ws); var r := AverageRating(ws).value;
      |xs| * (2 * r - 1) <= 2 * Sum(xs) < |xs| * (2 * r + 1)
  {
  }

  /** The average lies between the lowest and the highest rating. */
  lemma AverageWithinRatings(ws: seq<Watch>, lo: int, hi: int)
    requires forall i :: 0 <= i < |ws| && ws[i].rating.Some? ==> lo <= ws[i].rating.value <= hi
    requires AverageRating(ws).Some?
    ensures lo <= AverageRating(ws).value <= hi
  {
    var xs := RatingsOf(ws);
    RatingsWithin(ws, lo, hi);
    SumWithin(xs, lo, hi);
    RoundedMeanWithin(Sum(xs), |xs|, lo, hi);
  }

  lemma {:induction false} RatingsWithin(ws: seq<Watch>, lo: int, hi: int)
    requires forall i :: 0 <= i < |ws| && ws[i].rating.Some? ==> lo <= ws[i].rating.value <= hi
    ensures forall i :: 0 <= i < |RatingsOf(ws)| ==> lo <= RatingsOf(ws)[i] <= hi
  {
    if |ws| > 0 {
      assert forall i :: 1 <= i < |ws| ==> ws[i] == ws[1..][i - 1];
      RatingsWithin(ws[1..], lo, hi);
    }
  }
}

=== FILE: schema.dfy ===
/** The two database tables, `cinemas` and `watches`, as immutable records held in
    an in-memory store.

    Nullable columns are `Option`s; `NOT NULL` columns are plain values.
    Coordinates, timestamps and the `watched_at` date are abstract integers
    (a date is a day number, a timestamp an instant), since only their order matters. */
module Schema {
  import opened Wrappers

  /** A rating in tenths, 0.0 to 9.9: the non-negative values with two digits,
      one after the point. The `decimal(2,1)` column also holds -9.9 to -0.1,
      which the app is not expected to send. */
  type Tenths = x: int | 0 <= x <= 99

  datatype Cinema = Cinema(
    id: string,
    name: string,
    address: string,
    latitude: int,
    longitude: int,
    brand: Option<string>,
    isFavorite: bool,
    createdAt: int)

  datatype Watch = Watch(
    id: string,
    cinemaId: string,
    userId: Option<string>,
    movieTitle: string,
    genre: Option<string>,
    rating: Option<Tenths>,
    comment: Option<string>,
    posterUrl: Option<string>,
    watchedAt: int,
    createdAt: int)

  /** Rows of both tables, each sequence in the database's storage order. */
  datatype Store = Store(cinemas: seq<Cinema>, watches: seq<Watch>)

  /** A server action's new store together with what it returned. */
  datatype Mutation<T> = Mutation(store: Store, result: T)

  function CinemaIds(st: Store): set<string> {
    set i | 0 <= i < |st.cinemas| :: st.cinemas[i].id
  }

  function WatchIds(st: Store): set<string> {
    set i | 0 <= i < |st.watches| :: st.watches[i].id
  }

  /** Primary keys are unique and every watch references an existing cinema. */
  ghost predicate Valid(st: Store) {
    && (forall i, j :: 0 <= i < j < |st.cinemas| ==> st.cinemas[i].id != st.cinemas[j].id)
    && (forall i, j :: 0 <= i < j < |st.watches| ==> st.watches[i].id != st.watches[j].id)
    && (forall i :: 0 <= i < |st.watches| ==> st.watches[i].cinemaId in CinemaIds(st))
  }

  /** `DELETE FROM cinemas WHERE id = ...`: the foreign key's `ON DELETE CASCADE`
      removes every watch that references the cinema along with it. */
  function DeleteCinemaRow(st: Store, id: string): (r: Store)
    requires Valid(st)
    ensures Valid(r)
    ensures id !in CinemaIds(r)
    ensures forall w :: w in r.watches ==> w.cinemaId != id
    ensures forall c :: c in st.cinemas && c.id != id ==> c in r.cinemas
    ensures forall w :: w in st.watches && w.cinemaId != id ==> w in r.watches
    ensures forall c :: c in r.cinemas ==> c in st.cinemas
    ensures forall w :: w in r.watches ==> w in st.watches
  {
    var cs := KeepCinemas(st.cinemas, id);
    var ws := KeepWatches(st.watches, id);
    var r := Store(cs, ws);
    assert forall k :: 0 <= k < |ws| ==> ws[k].cinemaId in CinemaIds(r) by {
      forall k | 0 <= k < |ws|
        ensures ws[k].cinemaId in CinemaIds(r)
      {
        var w := ws[k];
        var i :| 0 <= i < |st.cinemas| && st.cinemas[i].id == w.cinemaId;
        assert st.cinemas[i] in cs;
        var j :| 0 <= j < |cs| && cs[j] == st.cinemas[i];
      }
    }
    r
  }

  /** Cinemas other than `id`, in order. */
  function KeepCinemas(cs: seq<Cinema>, id: string): (r: seq<Cinema>)
    ensures forall c :: c in r <==> c in cs && c.id != id
    ensures (forall i, j :: 0 <= i < j < |cs| ==> cs[i].id != cs[j].id)
         ==> (forall i, j :: 0 <= i < j < |r| ==> r[i].id != r[j].id)
  {
    if |cs| == 0 then []
    else if cs[0].id == id then KeepCinemas(cs[1..], id)
    else
      assert forall c :: c in cs[1..] ==> c in cs;
      [cs[0]] + KeepCinemas(cs[1..], id)
  }

  /** Watches that do not reference cinema `id`, in order. */
  function KeepWatches(ws: seq<Watch>, id: string): (r: seq<Watch>)
    ensures forall w :: w in r <==> w in ws && w.cinemaId != id
    ensures (forall i, j :: 0 <= i < j < |ws| ==> ws[i].id != ws[j].id)
         ==> (forall i, j :: 0 <= i < j < |r| ==> r[i].id != r[j].id)
  {
    if |ws| == 0 then []
    else if ws[0].cinemaId == id then KeepWatches(ws[1..], id)
    else
      assert forall w :: w in ws[1..] ==> w in ws;
      [ws[0]] + KeepWatches(ws[1..], id)
  }

  /** The text form in which the database returns a `decimal(2,1)` value, e.g. "4.5". */
  function RatingText(t: Tenths): (s: string)
    ensures |s| == 3 && s[1] == '.'
  {
    [Digit(t / 10), '.', Digit(t % 10)]
  }

  function Digit(d: int): char
    requires 0 <= d <= 9
  {
    ('0' as int + d) as char
  }

  /** `parseFloat` of a `decimal(2,1)` text, in tenths; `None` for any other text. */
  function ParseRating(s: string): (r: Option<Tenths>)
  {
    if |s| == 3 && '0' <= s[0] <= '9' && s[1] == '.' && '0' <= s[2] <= '9'
    then Some((s[0] as int - '0' as int) * 10 + (s[2] as int - '0' as int))
    else None
  }

  /** Reading a stored rating back recovers exactly the stored value. */
  lemma RatingTextRoundTrip(t: Tenths)
    ensures ParseRating(RatingText(t)) == Some(t)
  {
  }

  /** A text that parses is the text form of the value it parses to. */
  lemma ParseRatingCanonical(s: string)
    requires ParseRating(s).Some?
    ensures RatingText(ParseRating(s).value) == s
  {
    var t := ParseRating(s).value;
    assert t / 10 == s[0] as int - '0' as int;
    assert t % 10 == s[2] as int - '0' as int;
  }
}

=== FILE: sorting.dfy ===
/** Stable descending sort by an integer key.
    JavaScript's `Array.prototype.sort` is stable, and a database `ORDER BY ... DESC`
    leaves ties in an unspecified order; both are modelled by this one sort,
    which keeps ties in input order. */
module Sorting {

  /** Non-increasing in `key`. */
  ghost predicate SortedDesc<T>(s: seq<T>, key: T -> int) {
    forall i, j :: 0 <= i < j < |s| ==> key(s[i]) >= key(s[j])
  }

  /** Inserts `x` in front of the first element whose key is not greater than its own. */
  function InsertDesc<T>(x: T, s: seq<T>, key: T -> int): (r: seq<T>)
    ensures |r| == |s| + 1
    ensures multiset(r) == multiset(s) + multiset{x}
    ensures forall k :: 0 <= k < |r| ==> r[k] == x || r[k] in s
  {
    if |s| == 0 then [x]
    else if key(x) >= key(s[0]) then [x] + s
    else
      assert s == [s[0]] + s[1..];
      [s[0]] + InsertDesc(x, s[1..], key)
  }

  lemma {:induction false} InsertDescSorted<T>(x: T, s: seq<T>, key: T -> int)
    requires SortedDesc(s, key)
    ensures SortedDesc(InsertDesc(x, s, key), key)
  {
    if |s| == 0 || key(x) >= key(s[0]) {
    } else {
      var rest := InsertDesc(x, s[1..], key);
      InsertDescSorted(x, s[1..], key);
      assert forall k :: 0 <= k < |rest| ==> key(s[0]) >= key(rest[k]);
    }
  }

  /** Stable sort by non-increasing key: a permutation of its input. */
  function SortDesc<T>(s: seq<T>, key: T -> int): (r: seq<T>)
    ensures |r| == |s|
    ensures multiset(r) == multiset(s)
  {
    if |s| == 0 then []
    else
      assert s == [s[0]] + s[1..];
      InsertDesc(s[0], SortDesc(s[1..], key), key)
  }

  /** The sorted sequence is non-increasing in `key`. */
  lemma {:induction false} SortDescSorted<T>(s: seq<T>, key: T -> int)
    ensures SortedDesc(SortDesc(s, key), key)
  {
    if |s| > 0 {
      SortDescSorted(s[1..], key);
      InsertDescSorted(s[0], SortDesc(s[1..], key), key);
    }
  }

  /** Elements whose key equals `k`, in order. */
  function WithKey<T>(s: seq<T>, key: T -> int, k: int): seq<T> {
    if |s| == 0 then []
    else (if key(s[0]) == k then [s[0]] else []) + WithKey(s[1..], key, k)
  }

  lemma {:induction false} WithKeyAppend<T>(a: seq<T>, b: seq<T>, key: T -> int, k: int)
    ensures WithKey(a + b, key, k) == WithKey(a, key, k) + WithKey(b, key, k)
  {
    if |a| == 0 {
      assert a + b == b;
    } else {
      assert (a + b)[1..] == a[1..] + b;
      WithKeyAppend(a[1..], b, key, k);
    }
  }

  lemma {:induction false} InsertDescStable<T>(x: T, s: seq<T>, key: T -> int, k: int)
    requires SortedDesc(s, key)
    ensures WithKey(InsertDesc(x, s, key), key, k)
         == (if key(x) == k then [x] else []) + WithKey(s, key, k)
  {
    if |s| == 0 {
    } else if key(x) >= key(s[0]) {
      WithKeyAppend([x], s, key, k);
    } else {
      InsertDescStable(x, s[1..], key, k);
      WithKeyAppend([s[0]], InsertDesc(x, s[1..], key), key, k);
    }
  }

  /** Stability: among elements with equal keys, the sorted sequence keeps input order. */
  lemma {:induction false} SortDescStable<T>(s: seq<T>, key: T -> int, k: int)
    ensures WithKey(SortDesc(s, key), key, k) == WithKey(s, key, k)
  {
    if |s| != 0 {
      SortDescSorted(s[1..], key);
      SortDescStable(s[1..], key, k);
      InsertDescStable(s[0], SortDesc(s[1..], key), key, k);
    }
  }

  /** Sequences with the same multiset hold the same elements. */
  lemma SameElements<T>(a: seq<T>, b: seq<T>)
    requires multiset(a) == multiset(b)
    ensures forall x :: x in a <==> x in b
  {
    forall x ensures x in a <==> x in b {
      assert x in a <==> x in multiset(a);
      assert x in b <==> x in multiset(b);
    }
  }

  /** `s.slice(0, n)`. */
  function Take<T>(s: seq<T>, n: nat): (r: seq<T>)
    ensures |r| == if |s| < n then |s| else n
    ensures r <= s
  {
    if |s| <= n then s else s[..n]
  }

  function Min(a: int, b: int): int { if a <= b then a else b }
}

=== FILE: stats.dfy ===
/** The statistics page: total watches, watches per genre in the fixed genre
    order, the genre list as displayed (most watched first) and the five most
    visited cinemas. The input is the cinema list the server returns. */
module Stats {
  import opened Wrappers
  import opened Schema
  import opened Sorting
  import opened Constants
  import opened CinemaActions

  /** Every view's count is the length of its watch list, as `getCinemas` builds it. */
  predicate Counted(cs: seq<CinemaView>) {
    forall i :: 0 <= i < |cs| ==> cs[i].watchCount == |cs[i].watches|
  }

  /** `cinemas.reduce((sum, c) => sum + c.watchCount, 0)`. */
  function TotalWatches(cs: seq<CinemaView>): nat {
    if |cs| == 0 then 0 else cs[0].watchCount + TotalWatches(cs[1..])
  }

  /** All watches of all cinemas, cinema by cinema. */
  function Flatten(cs: seq<CinemaView>): seq<Watch> {
    if |cs| == 0 then [] else cs[0].watches + Flatten(cs[1..])
  }

  /** The total is the number of watches listed, when the counts are honest. */
  lemma {:induction false} TotalIsFlattened(cs: seq<CinemaView>)
    requires Counted(cs)
    ensures TotalWatches(cs) == |Flatten(cs)|
  {
    if |cs| > 0 {
      TotalIsFlattened(cs[1..]);
    }
  }

  // ---------------------------------------------------------------------------
  // Genres

  /** Watches filed under exactly `g`; a watch without a genre matches none. */
  function CountGenre(ws: seq<Watch>, g: string): nat {
    if |ws| == 0 then 0
    else (if ws[0].genre == Some(g) then 1 else 0) + CountGenre(ws[1..], g)
  }

  /** The source's nested loop: per cinema, the watches of genre `g`. */
  function GenreCount(cs: seq<CinemaView>, g: string): nat {
    if |cs| == 0 then 0 else CountGenre(cs[0].watches, g) + GenreCount(cs[1..], g)
  }

  lemma {:induction false} CountGenreAppend(a: seq<Watch>, b: seq<Watch>, g: string)
    ensures CountGenre(a + b, g) == CountGenre(a, g) + CountGenre(b, g)
  {
    if |a| == 0 {
      assert a + b == b;
    } else {
      assert (a + b)[1..] == a[1..] + b;
      CountGenreAppend(a[1..], b, g);
    }
  }

  /** Counting cinema by cinema is counting over all watches at once. */
  lemma {:induction false} GenreCountFlatten(cs: seq<CinemaView>, g: string)
    ensures GenreCount(cs, g) == CountGenre(Flatten(cs), g)
  {
    if |cs| > 0 {
      GenreCountFlatten(cs[1..], g);
      CountGenreAppend(cs[0].watches, Flatten(cs[1..]), g);
    }
  }

  datatype GenreStat = GenreStat(genre: string, watchCount: nat)

  /** One entry per genre of `gs` with a positive count, in the order of `gs`. */
  function StatsFor(cs: seq<CinemaView>, gs: seq<string>): (r: seq<GenreStat>)
    ensures forall i :: 0 <= i < |r| ==>
      && r[i].genre in gs
      && r[i].watchCount == GenreCount(cs, r[i].genre) > 0
  {
    if |gs| == 0 then []
    else
      var n := GenreCount(cs, gs[0]);
      var rest := StatsFor(cs, gs[1..]);
      assert forall g :: g in gs[1..] ==> g in gs;
      if n > 0 then [GenreStat(gs[0], n)] + rest else rest
  }

  /** `genreStats`: the genres of the fixed list that were watched at least once. */
  function GenreStats(cs: seq<CinemaView>): seq<GenreStat> {
    StatsFor(cs, GENRES)
  }

  /** Some entry is about genre `g`. */
  predicate HasEntry(stats: seq<GenreStat>, g: string) {
    exists i :: 0 <= i < |stats| && stats[i].genre == g
  }

  lemma {:induction false} StatsForMember(cs: seq<CinemaView>, gs: seq<string>, g: string)
    ensures HasEntry(StatsFor(cs, gs), g) <==> g in gs && GenreCount(cs, g) > 0
  {
    if |gs| > 0 {
      var r := StatsFor(cs, gs);
      var rest := StatsFor(cs, gs[1..]);
      StatsForMember(cs, gs[1..], g);
      assert g in gs <==> g == gs[0] || g in gs[1..] by {
        assert gs == [gs[0]] + gs[1..];
      }
      if GenreCount(cs, gs[0]) > 0 {
        assert r[0].genre == gs[0];
        if HasEntry(rest, g) {
          var i :| 0 <= i < |rest| && rest[i].genre == g;
          assert r[i + 1].genre == g;
        }
      }
    }
  }

  /** A genre has an entry exactly when it is one of the fixed genres and some watch has it. */
  lemma GenreStatsMember(cs: seq<CinemaView>, g: string)
    ensures HasEntry(GenreStats(cs), g) <==> g in GENRES && GenreCount(cs, g) > 0
  {
    StatsForMember(cs, GENRES, g);
  }

  /** `x` comes strictly before `y` in `gs`. */
  predicate Before(gs: seq<string>, x: string, y: string) {
    exists a, b :: 0 <= a < b < |gs| && gs[a] == x && gs[b] == y
  }

  /** The entries follow the order of the genre list. */
  lemma {:induction false} StatsForOrder(cs: seq<CinemaView>, gs: seq<string>)
    ensures forall i, j :: 0 <= i < j < |StatsFor(cs, gs)| ==>
      Before(gs, StatsFor(cs, gs)[i].genre, StatsFor(cs, gs)[j].genre)
  {
    if |gs| > 0 {
      var r := StatsFor(cs, gs);
      var rest := StatsFor(cs, gs[1..]);
      StatsForOrder(cs, gs[1..]);
      forall i, j | 0 <= i < j < |rest| ensures Before(gs, rest[i].genre, rest[j].genre) {
        assert Before(gs[1..], rest[i].genre, rest[j].genre);
        var a, b :| 0 <= a < b < |gs[1..]| && gs[1..][a] == rest[i].genre && gs[1..][b] == rest[j].genre;
        assert gs[a + 1] == rest[i].genre && gs[b + 1] == rest[j].genre;
      }
      if GenreCount(cs, gs[0]) > 0 {
        forall j | 0 <= j < |rest| ensures Before(gs, gs[0], rest[j].genre) {
          assert rest[j].genre in gs[1..];
          var b :| 0 <= b < |gs[1..]| && gs[1..][b] == rest[j].genre;
          assert gs[b + 1] == rest[j].genre;
        }
        forall i, j | 0 <= i < j < |r| ensures Before(gs, r[i].genre, r[j].genre) {
          if i == 0 {
            assert r[j] == rest[j - 1];
          } else {
            assert r[i] == rest[i - 1] && r[j] == rest[j - 1];
          }
        }
      }
    }
  }

  /** The fixed genre order is kept. */
  lemma GenreStatsOrder(cs: seq<CinemaView>)
    ensures forall i, j :: 0 <= i < j < |GenreStats(cs)| ==>
      Before(GENRES, GenreStats(cs)[i].genre, GenreStats(cs)[j].genre)
  {
    StatsForOrder(cs, GENRES);
  }

  /** A watch whose genre is not one of `gs` (or is absent) changes no entry. */
  lemma {:induction false} StatsForSameCounts(cs: seq<CinemaView>, cs': seq<CinemaView>, gs: seq<string>)
    requires forall g :: g in gs ==> GenreCount(cs, g) == GenreCount(cs', g)
    ensures StatsFor(cs, gs) == StatsFor(cs', gs)
  {
    if |gs| > 0 {
      assert gs[0] in gs;
      assert GenreCount(cs, gs[0]) == GenreCount(cs', gs[0]);
      assert forall g :: g in gs[1..] ==> g in gs;
      StatsForSameCounts(cs, cs', gs[1..]);
    }
  }

  lemma {:induction false} GenreCountAdd(cs: seq<CinemaView>, k: nat, w: Watch, g: string)
    requires k < |cs| && w.genre != Some(g)
    ensures GenreCount(cs[k := cs[k].(watches := cs[k].watches + [w])], g) == GenreCount(cs, g)
  {
    var cs' := cs[k := cs[k].(watches := cs[k].watches + [w])];
    CountGenreAppend(cs[k].watches, [w], g);
    if k > 0 {
      assert cs'[1..] == cs[1..][k - 1 := cs[k].(watches := cs[k].watches + [w])];
      GenreCountAdd(cs[1..], k - 1, w, g);
    } else {
      assert cs'[1..] == cs[1..];
    }
  }

  /** A watch with no genre, or one outside the fixed list, is counted nowhere. */
  lemma UncountedGenre(cs: seq<CinemaView>, k: nat, w: Watch)
    requires k < |cs|
    requires w.genre.None? || w.genre.value !in GENRES
    ensures GenreStats(cs[k := cs[k].(watches := cs[k].watches + [w])]) == GenreStats(cs)
  {
    var cs' := cs[k := cs[k].(watches := cs[k].watches + [w])];
    forall g | g in GENRES ensures GenreCount(cs, g) == GenreCount(cs', g) {
      GenreCountAdd(cs, k, w, g);
    }
    StatsForSameCounts(cs, cs', GENRES);
  }

  // -- The bars never add up to more than the total.

  function SumStats(stats: seq<GenreStat>): nat {
    if |stats| == 0 then 0 else stats[0].watchCount + SumStats(stats[1..])
  }

  /** Watches whose genre is one of `gs`. */
  function CountIn(ws: seq<Watch>, gs: seq<string>): (r: nat)
    ensures r <= |ws|
  {
    if |ws| == 0 then 0
    else (if ws[0].genre.Some? && ws[0].genre.value in gs then 1 else 0) + CountIn(ws[1..], gs)
  }

  lemma {:induction false} CountInCons(ws: seq<Watch>, g: string, gs: seq<string>)
    requires g !in gs
    ensures CountIn(ws, [g] + gs) == CountGenre(ws, g) + CountIn(ws, gs)
  {
    if |ws| > 0 {
      CountInCons(ws[1..], g, gs);
    }
  }

  lemma {:induction false} StatsForSum(cs: seq<CinemaView>, gs: seq<string>)
    requires Distinct(gs)
    ensures SumStats(StatsFor(cs, gs)) == CountIn(Flatten(cs), gs)
  {
    var ws := Flatten(cs);
    if |gs| == 0 {
      CountInEmpty(ws, gs);
    } else {
      assert Distinct(gs[1..]);
      StatsForSum(cs, gs[1..]);
      assert gs[0] !in gs[1..];
      assert gs == [gs[0]] + gs[1..];
      CountInCons(ws, gs[0], gs[1..]);
      GenreCountFlatten(cs, gs[0]);
    }
  }

  lemma {:induction false} CountInEmpty(ws: seq<Watch>, gs: seq<string>)
    requires |gs| == 0
    ensures CountIn(ws, gs) == 0
  {
    if |ws| > 0 {
      CountInEmpty(ws[1..], gs);
    }
  }

  /** The genre counts sum to at most the total, so no bar is wider than the whole. */
  lemma GenreStatsWithinTotal(cs: seq<CinemaView>)
    requires Counted(cs)
    ensures SumStats(GenreStats(cs)) <= TotalWatches(cs)
  {
    GenresTable();
    StatsForSum(cs, GENRES);
    TotalIsFlattened(cs);
  }

  // -- The displayed genre list.

  function StatCount(s: GenreStat): int { s.watchCount }

  /** `genreStats.sort((a, b) => b.watchCount - a.watchCount)`. */
  function DisplayedGenres(cs: seq<CinemaView>): (r: seq<GenreStat>)
    ensures multiset(r) == multiset(GenreStats(cs))
  {
    SortDesc(GenreStats(cs), StatCount)
  }

  /** Most watched first; genres with equal counts stay in the fixed genre order. */
  lemma DisplayedGenresOrder(cs: seq<CinemaView>, n: int)
    ensures SortedDesc(DisplayedGenres(cs), StatCount)
    ensures WithKey(DisplayedGenres(cs), StatCount, n) == WithKey(GenreStats(cs), StatCount, n)
  {
    SortDescSorted(GenreStats(cs), StatCount);
    SortDescStable(GenreStats(cs), StatCount, n);
  }

  // ---------------------------------------------------------------------------
  // Most visited cinemas

  function ViewCount(c: CinemaView): int { c.watchCount }

  /** `[...cinemas].sort((a, b) => b.watchCount - a.watchCount).slice(0, 5)`: a
      sorted copy, so the input list keeps its order. */
  function TopCinemas(cs: seq<CinemaView>): (r: seq<CinemaView>)
    ensures |r| == Min(|cs|, 5)
    ensures forall i :: 0 <= i < |r| ==> r[i] in cs
  {
    var sorted := SortDesc(cs, ViewCount);
    var r := Take(sorted, 5);
    forall i | 0 <= i < |r| ensures r[i] in cs {
      assert r[i] == sorted[i];
      assert sorted[i] in multiset(cs);
    }
    r
  }

  /** The list is most visited first, and every cinema left out has no more
      watches than any cinema listed. */
  lemma TopCinemasRanked(cs: seq<CinemaView>)
    ensures SortedDesc(TopCinemas(cs), ViewCount)
    ensures forall x, i :: x in cs && x !in TopCinemas(cs) && 0 <= i < |TopCinemas(cs)| ==>
      TopCinemas(cs)[i].watchCount >= x.watchCount
  {
    var sorted := SortDesc(cs, ViewCount);
    var r := TopCinemas(cs);
    SortDescSorted(cs, ViewCount);
    assert r <= sorted;
    forall x, i | x in cs && x !in r && 0 <= i < |r| ensures r[i].watchCount >= x.watchCount {
      assert x in multiset(sorted);
      var j :| 0 <= j < |sorted| && sorted[j] == x;
      assert r[i] == sorted[i];
    }
  }

  /** `cinema.brand || "기타"`. */
  function BrandLabel(brand: Option<string>): (r: string)
    ensures r != ""
    ensures Truthy(brand) ==> r == brand.value
    ensures !Truthy(brand) ==> r == "기타"
  {
    if Truthy(brand) then brand.value else "기타"
  }
}

=== FILE: views.dfy ===
/** What the list and card components decide to show. Markup, styling and
    navigation are left out; each component becomes a function from its props
    to a description of the view it renders. */
module Views {
  import opened Wrappers
  import opened Schema
  import opened CinemaActions

  // ---------------------------------------------------------------------------
  // CinemaCard

  /** `ws[i]` is the first watch with a truthy poster URL. */
  predicate FirstWithPoster(ws: seq<Watch>, i: int) {
    0 <= i < |ws| && Truthy(ws[i].posterUrl) && forall j :: 0 <= j < i ==> !Truthy(ws[j].posterUrl)
  }

  /** `watches.find((w) => w.posterUrl)`'s poster: the first truthy poster URL. */
  function FirstPoster(ws: seq<Watch>): (r: Option<string>)
    ensures r.None? <==> forall i :: 0 <= i < |ws| ==> !Truthy(ws[i].posterUrl)
    ensures r.Some? ==> exists i :: FirstWithPoster(ws, i) && ws[i].posterUrl == r
  {
    if |ws| == 0 then None
    else if Truthy(ws[0].posterUrl) then ws[0].posterUrl
    else
      var r := FirstPoster(ws[1..]);
      assert forall i :: 1 <= i < |ws| ==> ws[i] == ws[1..][i - 1];
      if r.Some? then
        var i :| FirstWithPoster(ws[1..], i) && ws[1..][i].posterUrl == r;
        assert FirstWithPoster(ws, i + 1);
        r
      else r
  }

  datatype CardView = CardView(
    cinemaId: string,
    name: string,
    brandLabel: Option<string>,
    star: bool,
    ratingBadge: Option<string>,
    watchCount: nat,
    latestTitle: Option<string>,
    address: string,
    thumbnail: Option<string>)

  /** `CinemaCard`: brand label for a truthy brand, a star for a favourite, the
      average as one-decimal text when there is one, the most recent movie (the
      first watch), the address, and the first poster as thumbnail. */
  function CinemaCard(v: CinemaView): (r: CardView)
    ensures r.cinemaId == v.cinema.id && r.name == v.cinema.name && r.address == v.cinema.address
    ensures r.brandLabel.Some? <==> Truthy(v.cinema.brand)
    ensures r.brandLabel.Some? ==> r.brandLabel == v.cinema.brand
    ensures r.star <==> v.cinema.isFavorite
    ensures r.ratingBadge.Some? <==> v.averageRating.Some?
    ensures r.ratingBadge.Some? ==> ParseRating(r.ratingBadge.value) == v.averageRating
    ensures r.watchCount == v.watchCount
    ensures r.latestTitle.Some? <==> |v.watches| > 0
    ensures r.latestTitle.Some? ==> r.latestTitle.value == v.watches[0].movieTitle
    ensures r.thumbnail.Some? <==> exists i :: 0 <= i < |v.watches| && Truthy(v.watches[i].posterUrl)
    ensures r.thumbnail == FirstPoster(v.watches)
  {
    var badge := if v.averageRating.Some? then Some(RatingText(v.averageRating.value)) else None;
    assert v.averageRating.Some? ==> ParseRating(badge.value) == v.averageRating by {
      if v.averageRating.Some? { RatingTextRoundTrip(v.averageRating.value); }
    }
    var thumb := FirstPoster(v.watches);
    CardView(
      v.cinema.id, v.cinema.name,
      if Truthy(v.cinema.brand) then v.cinema.brand else None,
      v.cinema.isFavorite,
      badge,
      v.watchCount,
      if |v.watches| > 0 then Some(v.watches[0].movieTitle) else None,
      v.cinema.address,
      thumb)
  }

  /** For a listed cinema the "latest" line names its most recently watched movie. */
  lemma CardShowsLatestWatch(st: Store, v: CinemaView, w: Watch)
    requires v.watches == WatchesOf(st, v.cinema.id) && |v.watches| > 0
    requires w in st.watches && w.cinemaId == v.cinema.id
    ensures CinemaCard(v).latestTitle.Some?
    ensures v.watches[0].watchedAt >= w.watchedAt
  {
    WatchesOfMember(st, v.cinema.id, w);
    WatchesOfNewestFirst(st, v.cinema.id);
    var k :| 0 <= k < |v.watches| && v.watches[k] == w;
    if k > 0 {
      assert WatchedAt(v.watches[0]) >= WatchedAt(v.watches[k]);
    }
  }

  // ---------------------------------------------------------------------------
  // CinemaList

  datatype ListView =
    | Skeleton(placeholders: nat)
    | NoResults
    | NoCinemas
    | Cards(cards: seq<CardView>)

  /** `CinemaList`; absent `isLoading` and `hasFilter` props are false. */
  function CinemaList(cinemas: seq<CinemaView>, isLoading: bool, hasFilter: bool): (r: ListView)
    ensures isLoading <==> r == Skeleton(3)
    ensures r == NoResults <==> !isLoading && |cinemas| == 0 && hasFilter
    ensures r == NoCinemas <==> !isLoading && |cinemas| == 0 && !hasFilter
    ensures r.Cards? <==> !isLoading && |cinemas| > 0
    ensures r.Cards? ==> |r.cards| == |cinemas|
    ensures r.Cards? ==> forall i :: 0 <= i < |cinemas| ==> r.cards[i] == CinemaCard(cinemas[i])
  {
    if isLoading then Skeleton(3)
    else if |cinemas| == 0 then (if hasFilter then NoResults else NoCinemas)
    else Cards(seq(|cinemas|, i requires 0 <= i < |cinemas| => CinemaCard(cinemas[i])))
  }

  /** Cards of cinemas with distinct ids have distinct ids, so the list's
      `key={cinema.id}` never repeats. */
  lemma CinemaListDistinctCards(cinemas: seq<CinemaView>, isLoading: bool, hasFilter: bool)
    requires forall i, j :: 0 <= i < j < |cinemas| ==> cinemas[i].cinema.id != cinemas[j].cinema.id
    ensures var r := CinemaList(cinemas, isLoading, hasFilter);
      r.Cards? ==> forall i, j :: 0 <= i < j < |r.cards| ==> r.cards[i].cinemaId != r.cards[j].cinemaId
  {
  }

  // ---------------------------------------------------------------------------
  // WatchList

  datatype WatchCardView = WatchCardView(watch: Watch, canEdit: bool, canDelete: bool, isDeleting: bool)

  datatype WatchListView = NoRecords | WatchCards(cards: seq<WatchCardView>)

  /** One card of `WatchList`: edit and delete are offered to the owner only,
      and only when the handler exists. */
  function WatchCard(w: Watch, currentUser: Option<string>, onEdit: bool, onDelete: bool,
                     deletingId: Option<string>): (r: WatchCardView)
    ensures r.watch == w
    ensures r.canEdit <==> onEdit && w.userId == currentUser
    ensures r.canDelete <==> onDelete && w.userId == currentUser
    ensures r.isDeleting <==> deletingId == Some(w.id)
  {
    var isOwner := w.userId == currentUser;
    WatchCardView(w, onEdit && isOwner, onDelete && isOwner, deletingId == Some(w.id))
  }

  /** `WatchList`: the empty message, or one card per watch in order. */
  function WatchList(ws: seq<Watch>, currentUser: Option<string>, onEdit: bool, onDelete: bool,
                     deletingId: Option<string>): (r: WatchListView)
    ensures r.NoRecords? <==> |ws| == 0
    ensures r.WatchCards? ==> |r.cards| == |ws|
    ensures r.WatchCards? ==> forall i :: 0 <= i < |ws| ==>
      r.cards[i] == WatchCard(ws[i], currentUser, onEdit, onDelete, deletingId)
  {
    if |ws| == 0 then NoRecords
    else WatchCards(seq(|ws|, i requires 0 <= i < |ws| => WatchCard(ws[i], currentUser, onEdit, onDelete, deletingId)))
  }

  /** At most one card shows as being deleted when ids are unique; a user never
      gets an action on someone else's watch. */
  lemma WatchListActions(ws: seq<Watch>, currentUser: Option<string>, onEdit: bool, onDelete: bool,
                         deletingId: Option<string>)
    requires forall i, j :: 0 <= i < j < |ws| ==> ws[i].id != ws[j].id
    ensures var r := WatchList(ws, currentUser, onEdit, onDelete, deletingId);
      r.WatchCards? ==>
        && (forall i, j :: 0 <= i < j < |r.cards| && r.cards[i].isDeleting ==> !r.cards[j].isDeleting)
        && (forall i :: 0 <= i < |r.cards| && ws[i].userId != currentUser ==>
              !r.cards[i].canEdit && !r.cards[i].canDelete)
  {
  }
}

=== FILE: watch_actions.dfy ===
/** The watch server actions: create (refused to read-only users), and update
    and delete (allowed only to the record's owner). */
module WatchActions {
  import opened Wrappers
  import opened Schema
  import opened Constants

  /** Why an action throws. */
  datatype WatchError = Forbidden | NotFound | NotOwnerOnUpdate | NotOwnerOnDelete | MissingCinema

  /** The message each thrown error carries; a missing cinema is the database's
      foreign key violation, whose text is not the application's. */
  function Message(e: WatchError): (r: Option<string>)
    ensures r.None? <==> e == MissingCinema
    ensures r.Some? ==> r.value != ""
  {
    match e
    case Forbidden => Some("권한이 없습니다")
    case NotFound => Some("관람 기록을 찾을 수 없습니다")
    case NotOwnerOnUpdate => Some("본인의 기록만 수정할 수 있습니다")
    case NotOwnerOnDelete => Some("본인의 기록만 삭제할 수 있습니다")
    case MissingCinema => None
  }

  // ---------------------------------------------------------------------------
  // Users

  /** The first user with the given id (`USERS.find`). */
  function FindUser(users: seq<User>, id: string): (r: Option<nat>)
    ensures r.None? <==> forall i :: 0 <= i < |users| ==> users[i].id != id
    ensures r.Some? ==> r.value < |users| && users[r.value].id == id
    ensures r.Some? ==> forall j :: 0 <= j < r.value ==> users[j].id != id
  {
    if |users| == 0 then None
    else if users[0].id == id then Some(0)
    else
      match FindUser(users[1..], id)
      case None => None
      case Some(k) => Some(k + 1)
  }

  /** `users[i]` is the first user with that id. */
  predicate FirstWithId(users: seq<User>, id: string, i: int) {
    0 <= i < |users| && users[i].id == id && forall j :: 0 <= j < i ==> users[j].id != id
  }

  /** `user?.readonly ?? false` for the first user in `users` with that id. */
  function IsReadonlyIn(users: seq<User>, id: string): (r: bool)
    ensures r <==> exists i :: FirstWithId(users, id, i) && users[i].readonly == Some(true)
  {
    match FindUser(users, id)
    case None => false
    case Some(k) =>
      assert FirstWithId(users, id, k);
      assert forall i :: FirstWithId(users, id, i) ==> i == k;
      users[k].readonly.GetOr(false)
  }

  /** `isReadonlyUser(userId)` over the application's user table. */
  function IsReadonlyUser(id: string): bool {
    IsReadonlyIn(USERS, id)
  }

  /** Only the guest is read-only: "minju", who has no flag, and ids outside the
      table are not. */
  lemma ReadonlyUsers(id: string)
    ensures IsReadonlyUser(id) <==> id == "guest"
  {
    if id == "guest" {
      assert USERS[1].id == id && USERS[1].readonly == Some(true);
      assert USERS[0].id != id;
    }
  }

  // ---------------------------------------------------------------------------
  // Watches

  /** The index of the watch with the given id (`findFirst` on the primary key). */
  function FindWatch(ws: seq<Watch>, id: string): (r: Option<nat>)
    ensures r.None? <==> forall i :: 0 <= i < |ws| ==> ws[i].id != id
    ensures r.Some? ==> r.value < |ws| && ws[r.value].id == id
  {
    if |ws| == 0 then None
    else if ws[0].id == id then Some(0)
    else
      match FindWatch(ws[1..], id)
      case None => None
      case Some(k) => Some(k + 1)
  }

  /** The form fields of a watch. */
  datatype WatchData = WatchData(
    movieTitle: string,
    genre: Option<string>,
    rating: Option<Tenths>,
    comment: Option<string>,
    posterUrl: Option<string>,
    watchedAt: int)

  /** The record a create inserts: the given fields, the caller as owner, and the
      database defaults for `id` and `created_at`. */
  function NewWatch(cinemaId: string, userId: string, d: WatchData, freshId: string, now: int): Watch {
    Watch(freshId, cinemaId, Some(userId), d.movieTitle, d.genre, d.rating, d.comment,
          d.posterUrl, d.watchedAt, now)
  }

  /** A watch with its editable fields replaced; id, cinema, owner and creation time stay. */
  function Edit(w: Watch, d: WatchData): Watch {
    w.(movieTitle := d.movieTitle, genre := d.genre, rating := d.rating,
       comment := d.comment, posterUrl := d.posterUrl, watchedAt := d.watchedAt)
  }

  /** `createWatch(data)`: refused to read-only users before anything is written;
      the insert fails when the cinema does not exist. */
  function CreateWatch(st: Store, cinemaId: string, userId: string, d: WatchData,
                       freshId: string, now: int): (r: Result<Mutation<Watch>, WatchError>)
    requires Valid(st) && freshId !in WatchIds(st)
    ensures r == Err(Forbidden) <==> IsReadonlyUser(userId)
    ensures r == Err(MissingCinema) <==> !IsReadonlyUser(userId) && cinemaId !in CinemaIds(st)
    ensures r.Err? ==> r.error == Forbidden || r.error == MissingCinema
    ensures r.Ok? ==>
      && Valid(r.value.store)
      && r.value.store.cinemas == st.cinemas
      && r.value.store.watches == st.watches + [r.value.result]
      && r.value.result.id == freshId
      && r.value.result.cinemaId == cinemaId
      && r.value.result.userId == Some(userId)
      && r.value.result.createdAt == now
      && Edit(r.value.result, d) == r.value.result
  {
    if IsReadonlyUser(userId) then Err(Forbidden)
    else if cinemaId !in CinemaIds(st) then Err(MissingCinema)
    else
      var w := NewWatch(cinemaId, userId, d, freshId, now);
      var st' := Store(st.cinemas, st.watches + [w]);
      assert forall i :: 0 <= i < |st.watches| ==> st.watches[i].id in WatchIds(st);
      Ok(Mutation(st', w))
  }

  /** `updateWatch(data)`: the record must exist and belong to the caller; the
      read-only flag is not consulted. The cinema id passed in is used only to
      refresh a page, never written. */
  function UpdateWatch(st: Store, id: string, userId: string, d: WatchData): (r: Result<Mutation<Watch>, WatchError>)
    requires Valid(st)
    ensures r == Err(NotFound) <==> id !in WatchIds(st)
    ensures r == Err(NotOwnerOnUpdate) <==>
      exists k :: 0 <= k < |st.watches| && st.watches[k].id == id && st.watches[k].userId != Some(userId)
    ensures r.Err? ==> r.error == NotFound || r.error == NotOwnerOnUpdate
    ensures r.Ok? ==>
      && Valid(r.value.store)
      && r.value.store.cinemas == st.cinemas
      && exists k :: 0 <= k < |st.watches| && st.watches[k].id == id
           && st.watches[k].userId == Some(userId)
           && r.value.result == Edit(st.watches[k], d)
           && r.value.store.watches == st.watches[k := r.value.result]
  {
    match FindWatch(st.watches, id)
    case None => Err(NotFound)
    case Some(k) =>
      assert forall j :: 0 <= j < |st.watches| && st.watches[j].id == id ==> j == k;
      var old_ := st.watches[k];
      if old_.userId != Some(userId) then Err(NotOwnerOnUpdate)
      else
        var w := Edit(old_, d);
        var st' := Store(st.cinemas, st.watches[k := w]);
        assert forall i :: 0 <= i < |st.watches| ==> st'.watches[i].id == st.watches[i].id;
        assert forall i :: 0 <= i < |st.watches| ==> st'.watches[i].cinemaId == st.watches[i].cinemaId;
        Ok(Mutation(st', w))
  }

  /** `deleteWatch(id, cinemaId, userId)`: the record must exist and belong to the
      caller; the read-only flag is not consulted. */
  function DeleteWatch(st: Store, id: string, userId: string): (r: Result<Store, WatchError>)
    requires Valid(st)
    ensures r == Err(NotFound) <==> id !in WatchIds(st)
    ensures r == Err(NotOwnerOnDelete) <==>
      exists k :: 0 <= k < |st.watches| && st.watches[k].id == id && st.watches[k].userId != Some(userId)
    ensures r.Err? ==> r.error == NotFound || r.error == NotOwnerOnDelete
    ensures r.Ok? ==>
      && Valid(r.value)
      && r.value.cinemas == st.cinemas
      && exists k :: 0 <= k < |st.watches| && st.watches[k].id == id
           && st.watches[k].userId == Some(userId)
           && r.value.watches == st.watches[..k] + st.watches[k + 1..]
  {
    match FindWatch(st.watches, id)
    case None => Err(NotFound)
    case Some(k) =>
      assert forall j :: 0 <= j < |st.watches| && st.watches[j].id == id ==> j == k;
      if st.watches[k].userId != Some(userId) then Err(NotOwnerOnDelete)
      else
        var st' := Store(st.cinemas, st.watches[..k] + st.watches[k + 1..]);
        RemoveAtValid(st, st', k);
        Ok(st')
  }

  /** Deleting removes exactly the one id. */
  lemma DeleteWatchIds(st: Store, id: string, userId: string)
    requires Valid(st) && DeleteWatch(st, id, userId).Ok?
    ensures WatchIds(DeleteWatch(st, id, userId).value) == WatchIds(st) - {id}
  {
    var st' := DeleteWatch(st, id, userId).value;
    var k :| 0 <= k < |st.watches| && st.watches[k].id == id
           && st.watches[k].userId == Some(userId)
           && st'.watches == st.watches[..k] + st.watches[k + 1..];
    RemoveAtIds(st, st', k);
  }

  /** Removing one watch keeps the store valid. */
  lemma RemoveAtValid(st: Store, st': Store, k: nat)
    requires Valid(st) && st'.cinemas == st.cinemas
    requires k < |st.watches| && st'.watches == st.watches[..k] + st.watches[k + 1..]
    ensures Valid(st')
  {
    assert forall i :: 0 <= i < |st'.watches| ==>
      st'.watches[i] == st.watches[if i < k then i else i + 1];
  }

  lemma RemoveAtIds(st: Store, st': Store, k: nat)
    requires k < |st.watches| && st'.watches == st.watches[..k] + st.watches[k + 1..]
    requires forall i, j :: 0 <= i < j < |st.watches| ==> st.watches[i].id != st.watches[j].id
    ensures WatchIds(st') == WatchIds(st) - {st.watches[k].id}
  {
    var id := st.watches[k].id;
    forall x | x in WatchIds(st') ensures x in WatchIds(st) - {id} {
      var i :| 0 <= i < |st'.watches| && st'.watches[i].id == x;
      var j := if i < k then i else i + 1;
      assert st'.watches[i] == st.watches[j];
    }
    forall x | x in WatchIds(st) - {id} ensures x in WatchIds(st') {
      var i :| 0 <= i < |st.watches| && st.watches[i].id == x;
      var j := if i < k then i else i - 1;
      assert st'.watches[j] == st.watches[i];
    }
  }

  /** A record a user creates, that same user can delete, and the store is as before. */
  lemma CreateThenDelete(st: Store, cinemaId: string, userId: string, d: WatchData,
                         freshId: string, now: int)
    requires Valid(st) && freshId !in WatchIds(st)
    requires CreateWatch(st, cinemaId, userId, d, freshId, now).Ok?
    ensures DeleteWatch(CreateWatch(st, cinemaId, userId, d, freshId, now).value.store, freshId, userId) == Ok(st)
  {
    var m := CreateWatch(st, cinemaId, userId, d, freshId, now).value;
    var n := |st.watches|;
    assert m.store.watches[n].id == freshId;
    assert m.store.watches[..n] + m.store.watches[n + 1..] == st.watches;
  }

  /** A read-only user creates nothing, yet may edit a record they own. */
  lemma ReadonlyOwnerMayUpdate(st: Store, id: string, d: WatchData, cinemaId: string, freshId: string, now: int)
    requires Valid(st) && freshId !in WatchIds(st)
    requires exists k :: 0 <= k < |st.watches| && st.watches[k].id == id && st.watches[k].userId == Some("guest")
    ensures CreateWatch(st, cinemaId, "guest", d, freshId, now) == Err(Forbidden)
    ensures UpdateWatch(st, id, "guest", d).Ok?
    ensures DeleteWatch(st, id, "guest").Ok?
  {
    ReadonlyUsers("guest");
  }

  /** Saving the same form twice is the same as saving it once. */
  lemma UpdateIdempotent(st: Store, id: string, userId: string, d: WatchData)
    requires Valid(st) && UpdateWatch(st, id, userId, d).Ok?
    ensures UpdateWatch(UpdateWatch(st, id, userId, d).value.store, id, userId, d)
         == UpdateWatch(st, id, userId, d)
  {
    var m := UpdateWatch(st, id, userId, d).value;
    var k :| 0 <= k < |st.watches| && st.watches[k].id == id
           && st.watches[k].userId == Some(userId)
           && m.result == Edit(st.watches[k], d)
           && m.store.watches == st.watches[k := m.result];
    assert m.store.watches[k] == m.result;
    assert forall j :: 0 <= j < |m.store.watches| && m.store.watches[j].id == id ==> j == k;
    assert id in WatchIds(m.store);
    var m2 := UpdateWatch(m.store, id, userId, d).value;
    var k2 :| 0 <= k2 < |m.store.watches| && m.store.watches[k2].id == id
           && m2.result == Edit(m.store.watches[k2], d)
           && m2.store.watches == m.store.watches[k2 := m2.result];
    assert k2 == k;
    assert m2.store.watches == m.store.watches;
    assert m2.store.cinemas == m.store.cinemas;
  }
}

=== FILE: wrappers.dfy ===
/** Nullable values and failing operations.
    `Option` stands for the source's `T | null` fields; `Result` for a server
    action that either returns a value or throws an `Error`. */
module Wrappers {

  datatype Option<+T> = None | Some(value: T) {

    /** The value, or `default` when absent (the source's `x ?? default`). */
    function GetOr(default: T): T {
      match this
      case Some(v) => v
      case None => default
    }
  }

  datatype Result<+T, +E> = Ok(value: T) | Err(error: E)

  /** JavaScript truthiness of a nullable string: `null` and `""` are falsy. */
  predicate Truthy(s: Option<string>) {
    s.Some? && s.value != ""
  }
}
